=== FILE: README.md ===
# MathClash core in Dafny

MathClash is a timed arithmetic quiz. Each game has three levels. For each level the game generates a random
integer expression, such as `12 * 3 - 7`. The player types an answer (a plain number or a fraction `a/b`), skips
with `s`, or runs out of time. A correct answer earns 10 points. A skip, a wrong answer or a timeout costs 5 points
and files the question for later retry. A game is won when the level score after the third level is positive.

This project models the logical core of the program and proves properties of the model:

- **Arith** (`arith.dfy`): `precedence` and `applyOp`, including the 1e99 value returned for a divisor below 1e-9.
- **Lexer** (`lexer.dfy`): the scanner inside `evaluate_expression`. Spaces are skipped, digit runs are
  accumulated, and every other character is an operator. Also the decimal printing a string stream does, and the
  round trip between the two.
- **Evaluator** (`evaluator.dfy`): `evaluate_expression` as a two-stack machine over sequences. It is proved equal
  to the usual left-associative precedence grammar, and the guarded division is proved exact whenever no divisor
  is zero.
- **Generator** (`generator.dfy`): `random_num`, `random_operator` and `generate_random_question`. Each is a
  function of an explicit stream of `rand()` draws, and the result is `Exhausted` when the stream runs out. It is
  `Undefined` where the C++ program has undefined behaviour: a double-to-int conversion out of range, an `int`
  product overflow, or the evaluator reading an empty stack. The truncation toward zero of line 557 is explicit.
  Reading the uninitialised `next` on the skip-after-`*`/`/` path (line 574, when no earlier pass of the do-while
  assigned it) is undefined behaviour as well. The model does not flag it: it replaces the read by an arbitrary
  value `stale(i)`. So `Undefined`, and every claim below that something is defined, covers only the three kinds
  listed first.
- **Checker** (`checker.dfy`): `evaluate_fractional_input` and `is_answer_correct`. The library `stod` is a
  parameter, returning `None` where it throws. A parsed answer is a finite real, +infinity (zero denominator) or
  NaN (a failed fraction), and IEEE comparisons against the last two are false.
- **Game** (`game.dfy`): the score/state transitions of the game screens as pure record-to-record functions. These
  are: submitting an answer, the per-frame timeout test, the retry-failed screen, starting a game, starting and
  ending a level, and `update_user_record`. The checker's verdict is an input, so mouse hit-testing is replaced by
  the choice of transition.

## Model

| member | source | states |
|---|---|---|
| Arith.Precedence | MathClash/src/main.cpp:426-430 | the binding strength is 1 exactly for `+ -`, 2 exactly for `* /`, and 0 for any other character |
| Arith.ApplyOp | MathClash/src/main.cpp:433-442 | no contract of its own; Arith.ApplyOpMeaning (next row) characterises it |
| Arith.ApplyOpMeaning | MathClash/src/main.cpp:433-442 | applyOp is total: it gives the sum, difference and product; for `/` a quotient q with q·b = a when abs(b) ≥ 1e-9, else 1e99; 0 for any other character |
| Arith.CombineAgrees | MathClash/src/main.cpp:438-439 | the 1e-9 guard never fires for a divisor of magnitude at least one, so guarded and exact division agree |
| Lexer.NatToString | MathClash/src/main.cpp:538 | an integer is written as a non-empty run of decimal digits with no leading zero |
| Lexer.IntToString | MathClash/src/main.cpp:538 | `ss << n` writes a non-negative `n` as digits that accumulate back to `n`, and a negative one as a minus sign followed by the digits of `-n` |
| Lexer.DigitRun | MathClash/src/main.cpp:454-457 | the inner scan loop consumes a maximal run of digits and stops at the first non-digit |
| Lexer.DigitsOfNumeral | MathClash/src/main.cpp:453-457 | accumulating `val * 10 + digit` over the printed digits of n gives back n |
| Lexer.Scan | MathClash/src/main.cpp:449-470 | no contract of its own; Lexer.ScanRenderable and Lexer.ScanRender characterise it |
| Lexer.ScanRenderable | MathClash/src/main.cpp:450-461 | the scanner never yields a space or a digit as an operator token, since spaces are skipped and digits start a literal |
| Lexer.ScanNumeral | MathClash/src/main.cpp:449-459 | scanning a printed number gives exactly one literal token carrying that number |
| Lexer.ScanJoin | MathClash/src/main.cpp:449-450 | scanning two texts joined by a space gives their token streams concatenated, because spaces are skipped and a digit run stops at the space |
| Lexer.ScanRender | MathClash/src/main.cpp:449-470 | round trip: rendering with single spaces and scanning gives back the same token list, for every token list whose operators are neither spaces nor digits (exactly what the scanner produces, Lexer.ScanRenderable) |
| Evaluator.FoldTop | MathClash/src/main.cpp:463-466 | one reduction pops one operator and two values and pushes one value; it fails exactly when fewer than two values are stacked |
| Evaluator.Reduce | MathClash/src/main.cpp:462-467 | the reduction loop before pushing an operator folds exactly the operators on top that bind at least as tightly as the incoming one: it leaves a prefix of the operator stack whose top binds less tightly, and every operator it removed passed the loop test |
| Evaluator.FoldAll | MathClash/src/main.cpp:472-477 | the final loop empties the operator stack, consuming one value per operator, and fails exactly when some step finds too few values |
| Evaluator.Step | MathClash/src/main.cpp:450-469 | a literal is always pushed; after an operator the stack top is that operator; each literal raises the count of values over operators by one and each operator lowers it by one |
| Evaluator.Process | MathClash/src/main.cpp:449-470 | after the scan the values outnumber the operators by the literals-minus-operators balance of the tokens |
| Evaluator.EvaluateTokens | MathClash/src/main.cpp:472-479 | a value results exactly when the scan never ran short of values and the tokens hold at least one more literal than operators; otherwise the program would read an empty stack |
| Evaluator.EvaluateExpression | MathClash/src/main.cpp:445-480 | no contract of its own; Evaluator.EvaluateShown and Evaluator.StackMachineMatchesGrammar characterise it |
| Evaluator.StackMachineMatchesGrammar | MathClash/src/main.cpp:445-480 | on every well-formed token list the two-stack evaluator gives the value of the left-associative grammar with `* /` binding tighter than `+ -` |
| Evaluator.EvaluateRendered | MathClash/src/main.cpp:445-480 | evaluating the single-spaced text of a token list equals evaluating the token list, for every token list whose operators are neither spaces nor digits (exactly what the scanner produces, Lexer.ScanRenderable) |
| Evaluator.EvaluateShown | MathClash/src/main.cpp:445-480 | evaluating the text the generator prints for an expression gives the grammar value of that expression |
| Evaluator.Show | MathClash/src/main.cpp:538 | the string-stream text (the lead, then ` op operand` per link, as lines 538 and 574 write it) has no contract of its own; Evaluator.ShowIsRender (it is the tokens rendered with single spaces) and Evaluator.EvaluateShown characterise it |
| Evaluator.NoSentinel | MathClash/src/main.cpp:438-439 | when no divisor literal is zero, the guarded evaluation equals exact evaluation, so 1e99 never appears |
| Evaluator.LeftAssociative | MathClash/src/main.cpp:462 | `a - b - c` evaluates to (a − b) − c for all naturals |
| Evaluator.MultiplicationFirst | MathClash/src/main.cpp:426-430 | `a + b * c` evaluates to a + (b · c) for all naturals |
| Evaluator.DivisionFirst | MathClash/src/main.cpp:426-430 | `a - b / c` evaluates to a − (b / c) for every divisor c ≥ 1 |
| Evaluator.LeftAssociativeText | MathClash/src/main.cpp:574 | the expression 10, −3, −2 prints as `10 - 3 - 2` (so it evaluates to 5) |
| Evaluator.MultiplicationFirstText | MathClash/src/main.cpp:574 | the expression 2, +3, ·4 prints as `2 + 3 * 4` (so it evaluates to 14) |
| Evaluator.DivisionFirstText | MathClash/src/main.cpp:574 | the expression 10, −4, /2 prints as `10 - 4 / 2` (so it evaluates to 8) |
| Generator.RandomNum | MathClash/src/main.cpp:414-417 | for any draw the result lies between the smaller and the larger bound, whichever order they are given in |
| Generator.RandomOperator | MathClash/src/main.cpp:420-423 | the result is one of the four operators `+ - * /` |
| Generator.TierOf | MathClash/src/main.cpp:525-533 | no contract of its own; Generator.GenerateDraft's contract gives what the tier leads to: one operator and operands in [1,10] at level 1, two or three operators and a lead in [5·level, 15·level] above it |
| Generator.Lead | MathClash/src/main.cpp:538-576 | the leading operand lies between the tier's bounds, the draft has exactly the tier's number of operators, and the loop invariant holds for the whole draft |
| Generator.RunningValue | MathClash/src/main.cpp:557 | a running value is an `int` only where the evaluation is defined; Generator.RunningValueTruncates says which `int`, and Generator.RunningValueSmall bounds it |
| Generator.RunningValueTruncates | MathClash/src/main.cpp:557 | the divisor search reads the value of the whole expression printed so far, truncated toward zero, not the left operand of the `/`; it is defined exactly when that truncation fits in an `int` |
| Generator.Truncate | MathClash/src/main.cpp:557 | conversion of a double to int rounds toward zero, for negative values as well |
| Generator.RedrawZero | MathClash/src/main.cpp:556 | the redraw loop ends with a non-zero divisor, which is the first draw or a value in the level's range |
| Generator.SearchDivisor | MathClash/src/main.cpp:559-567 | the divisor search ends with a divisor in [1,10], different from the running value, that divides the running value or twice or four times it; it comes from {2,4,5,8,10} on the clean branch |
| Generator.DrawOperand | MathClash/src/main.cpp:553-568 | a drawn operand is in range for `+ - *`; a `/` operand is non-zero, in range or in [1,10], and fits the running value as above |
| Generator.DrawOperator | MathClash/src/main.cpp:545-548 | an operator draw, with the level-3 redraw of a second division, yields one of the four operators |
| Generator.ChooseLink | MathClash/src/main.cpp:544-570 | the do-while loop exits only with an operator different from the previous one; off the skip-after-`*`/`/` path its operand fits |
| Generator.Build | MathClash/src/main.cpp:540-576 | the for loop produces exactly the required number of operators, extends the expression so far and keeps the loop invariant |
| Generator.GenerateDraft | MathClash/src/main.cpp:519-576 | level 1 gives 1 operator with a lead and an operand in [1,10]; levels 2 and 3 give 2 or 3 operators with a lead in [5·level, 15·level]; no operator repeats its predecessor |
| Generator.GenerateRandomQuestion | MathClash/src/main.cpp:519-581 | at level 1 no sequence of draws reaches undefined behaviour (the uninitialised `next` is never read there); at levels 2 and 3 no out-of-range conversion, `int` overflow or empty-stack read occurs when the value standing in for that `next` lies in [1,45]; a finished draft on the normal path always yields a question whose answer is the exact value of the expression; the text is the printed draft and evaluates to the answer |
| Generator.NormalDraftExact | MathClash/src/main.cpp:553-579 | off the skip-after-`*`/`/` path every operand is at least 1, so the printed text evaluates to the exact value of the expression, never the 1e99 sentinel |
| Generator.ExprBound | MathClash/src/main.cpp:445-480 | with every operand in [1,45], an expression of n operators has magnitude at most Cap(n) (45, 2070, 93195 for n = 0, 1, 2) |
| Generator.RunningValueSmall | MathClash/src/main.cpp:557-558 | the running value of at most two operators with operands in [1,45] is defined and lies in ±93195, so `current_val * 4` fits in an `int` |
| Generator.DrawOperandDefined | MathClash/src/main.cpp:553-568 | after an expression of at most two operators with operands in [1,45], drawing an operand from a tier within [1,45] never overflows or reads an empty stack, and gives a value in [1,45] |
| Generator.ChooseLinkDefined | MathClash/src/main.cpp:544-570 | the do-while loop never overflows or reads an empty stack, and leaves an operand in [1,45], when the held value and the value standing in for the uninitialised `next` are in [1,45] |
| Generator.BuildDefined | MathClash/src/main.cpp:540-576 | the for loop never overflows or reads an empty stack, and keeps every operand in [1,45], when the values standing in for the uninitialised `next` are in [1,45] |
| Generator.DraftDefined | MathClash/src/main.cpp:519-576 | at every level, with the values standing in for the uninitialised `next` in [1,45], drawing the expression never reaches an out-of-range conversion, an `int` overflow or an empty-stack read |
| Generator.ChooseLinkIgnoresStale | MathClash/src/main.cpp:544-570 | after an operator other than `*` and `/` the do-while cannot skip, so its outcome does not depend on the value standing in for the uninitialised `next` |
| Generator.LevelOneIgnoresStale | MathClash/src/main.cpp:525-576 | at level 1 the draft does not depend on the value standing in for the uninitialised `next`, so level 1 never reads it |
| Generator.SecondDivisionAtLevelThree | MathClash/src/main.cpp:546-548 | the level-3 redraw of a second division is a single draw and can be `/` again |
| Generator.QuirkKeepsOperand | MathClash/src/main.cpp:550-551 | in every tier, whether or not a division was used, a `*` straight after a `/` leaves the loop without drawing its operand, so the operand is whatever `next` held |
| Generator.FractionalAnswer | MathClash/src/main.cpp:558 | a divisor need only divide four times the running value: the draws 0, 3, 1 at level 1 give the question `1 / 2` with answer 0.5 |
| Checker.Find | MathClash/src/main.cpp:484 | `find` gives the first position of the character, or −1 (npos) exactly when it does not occur |
| Checker.FractionOf | MathClash/src/main.cpp:486-493 | a fraction never throws: a failed half gives NaN, a denominator below 1e-9 gives +infinity, otherwise the quotient |
| Checker.Within | MathClash/src/main.cpp:510-513 | `fabs(u - c) < tol` under IEEE rules has no contract of its own; Checker.NonFiniteRejected (false whenever a side is infinite or NaN) and Checker.AcceptsIff characterise it |
| Checker.FloorOf | MathClash/src/main.cpp:512-513 | `floor` of a finite double is the integer at or just below it; an infinity or a NaN stays non-finite |
| Checker.EvaluateFractionalInput | MathClash/src/main.cpp:483-496 | the parse throws exactly when the input has no slash and `stod` rejects it; a slash-free input is the number `stod` reads |
| Checker.IsAnswerCorrect | MathClash/src/main.cpp:499-516 | only a finite parsed answer against a finite reference can be accepted; Checker.AcceptsIff gives the exact condition |
| Checker.ParseCases | MathClash/src/main.cpp:483-496 | input without a slash is parsed as one number (failing where `stod` throws); otherwise it is split at its first slash |
| Checker.UnparseableRejected | MathClash/src/main.cpp:495-505 | only a slash-free input that `stod` rejects throws, and the checker then answers false |
| Checker.AcceptsIff | MathClash/src/main.cpp:499-516 | an answer is accepted exactly when it parses to a finite number within 0.1 of a finite reference; the near-integer test adds no case |
| Checker.NonFiniteRejected | MathClash/src/main.cpp:510-515 | an infinite or NaN answer, or an infinite reference, is never accepted |
| Checker.ZeroDenominatorRejected | MathClash/src/main.cpp:489 | `a/b` with a denominator below 1e-9 parses as +infinity and is rejected against every reference, infinity included |
| Checker.ExactAccepted | MathClash/src/main.cpp:510 | every finite parsed answer is accepted against its own value |
| Checker.HalfAccepted | MathClash/src/main.cpp:487-490 | `1/2` is accepted for 0.5 |
| Checker.NearIntegerAccepted | MathClash/src/main.cpp:510-513 | `10` is accepted for 9.995 by the 0.1 test, although 9.995 is not within 0.01 of its floor |
| Game.FirstNamed | MathClash/src/main.cpp:585-586 | the lookup finds the first record with the username, or −1 when there is none |
| Game.UpdateUserRecord | MathClash/src/main.cpp:584-596 | the first record with the same username is replaced by the user; with none, the user is appended |
| Game.UpdateFinds | MathClash/src/main.cpp:584-596 | after an update a lookup by name finds exactly the saved record; the list grows by one exactly when the user was new |
| Game.UpdateIdempotent | MathClash/src/main.cpp:584-596 | updating twice with the same user is updating once |
| Game.UpdateKeepsOthers | MathClash/src/main.cpp:585-593 | every record other than the replaced one is unchanged |
| Game.UpdateTallied | MathClash/src/main.cpp:584-596 | updating keeps every record's won plus lost equal to played |
| Game.Finish | MathClash/src/main.cpp:784-792 | after the third level games played rises by 1, and exactly one of won (level score > 0) or lost rises, with the matching message |
| Game.Skipped | MathClash/src/main.cpp:762 | no contract of its own; Game.Submit's contract charges a skip like a wrong answer, and Game.TimeoutLikeSkip equates a timeout with submitting a skip |
| Game.Delta | MathClash/src/main.cpp:762-773 | no contract of its own; Game.Submit's contract gives the +10/−5 change of the level score and Game.PointsOfCredits sums it over rounds |
| Game.Charge | MathClash/src/main.cpp:762-773 | the score rises exactly when the answer is credited; the missed question is appended exactly when it is not; no other field of the user changes |
| Game.Advance | MathClash/src/main.cpp:777-793 | the input is cleared and the level rises by 1, to the next level's start or, after the third, to the level end |
| Game.Submit | MathClash/src/main.cpp:760-793 | a skip or a wrong answer gives −5 and files the question; a correct answer gives +10 with the list unchanged. The total and level score move by the same delta. The level rises by 1, and the end-of-game counters move as in Finish. The stored records are exactly `update_user_record` applied to the user with the new score and list and the old games counters, so every other record is unchanged. The invariant is kept |
| Game.Tick | MathClash/src/main.cpp:947-974 | the state changes exactly when the limit (20, 15, 10 s) has passed and the flag is clear; then −5, the question is filed, the level advances and the stored record is untouched |
| Game.TimeoutLikeSkip | MathClash/src/main.cpp:952-974 | a timeout equals submitting a skip, except that the stored record is not updated and the flag is set |
| Game.FlagStopsTimeout | MathClash/src/main.cpp:952 | once the flag is set, no clock reading changes anything |
| Game.StartGame | MathClash/src/main.cpp:727-733 | the start button begins at the first level with level score 0, an empty input and the flag cleared |
| Game.StartLevelAsWritten | MathClash/src/main.cpp:851-856 | the level-start click installs the new question and changes nothing else, the timeout flag included |
| Game.StartLevel | MathClash/src/main.cpp:851-856 | the level-start click installs the new question and clears the timeout flag |
| Game.EndLevel | MathClash/src/main.cpp:860-864 | the level-end click saves the current user, so a lookup finds it, and returns to the menu |
| Game.RetryAnswer | MathClash/src/main.cpp:822-831 | a correct retry of the oldest failed question gives +10, removes it and saves the user; a wrong one only clears the input; with no failed questions nothing happens |
| Game.RetrySkip | MathClash/src/main.cpp:832-836 | skipping drops the oldest failed question without touching the score or the stored records |
| Game.RetryWithOwnValue | MathClash/src/main.cpp:825-826 | an input that parses to the failed question's own answer earns the 10 points |
| Game.RoundIgnoresFlag | MathClash/src/main.cpp:760-793 | submitting never reads the timeout flag, so a round started as written ends in the same state as with the corrected level start, apart from the flag |
| Game.PointsOfCredits | MathClash/src/main.cpp:760-773 | the points of n rounds with c credited are 15·c − 5·n |
| Game.OneRound | MathClash/src/main.cpp:760-793 | one level start and submit move the level, the scores, the failed list and the counters as Submit states |
| Game.PlayOutScore | MathClash/src/main.cpp:772-773 | playing out the remaining levels ends the game and adds the rounds' points to both scores |
| Game.PlayOutFailed | MathClash/src/main.cpp:762-769 | playing out the remaining levels files exactly the uncredited questions, in order |
| Game.PlayOutTally | MathClash/src/main.cpp:784-791 | playing out the remaining levels records one game, won exactly when the final level score is positive |
| Game.WholeGame | MathClash/src/main.cpp:727-793 | a three-level game from the menu ends at the level end with score change 15·c − 15, the missed questions filed, one game played, and a win exactly when at least two answers were credited |
| Game.DrawLatch | MathClash/src/main.cpp:268-294 | the draw pass of the playing screen sets the timeout flag once no time remains and changes nothing else |
| Game.FrameAsWritten | MathClash/src/main.cpp:268-294 | no contract of its own (the draw pass, then the timeout test of lines 947-976); Game.FramePenaltyWindow characterises it |
| Game.FramePenaltyWindow | MathClash/src/main.cpp:291-292 | in one frame as written, the penalty is charged exactly when the limit passes between the draw pass's clock reading and the timeout test's; once the draw pass sees it, only the flag changes |
| Game.LatchSwallowsTimeout | MathClash/src/main.cpp:291-292 | at level 1 with both clock readings at 20 s, the timeout test alone charges −5, but the frame as written charges nothing and stays in the level |
| Game.LaterTimeoutIgnored | MathClash/src/main.cpp:731 | as written, after a timeout in level 1 or 2 the flag stays set, so the next level of the same game never times out |
| Game.EveryLevelTimesOut | MathClash/src/main.cpp:852-855 | with the flag cleared at each level start, reaching any level's limit charges −5, files the question and advances |

## Left out

- SFML drawing, fonts, textures and layouts, mouse hit-testing and text editing of the input (backspace, character
  entry): these are user-interface plumbing. Each click is modelled as the choice of one transition, and the typed
  text as a field of the state.
- The navigation-only clicks (dashboard, leaderboard, back buttons, the menu's retry and logout buttons),
  login/signup, `get_win_rate` and the leaderboard sort. None of them moves scores. The logout click also calls `save_users`; its `update_user_record` is the same no-op update as the save in Game.EndLevel.
- `save_users` and `load_users`: file I/O, and their text formatting of doubles. The call `save_users` makes to
  `update_user_record` is covered by `Game.UpdateIdempotent`, so each save after an update is modelled as no
  change to the records.
- `srand(time(0))` and `rand()` are an explicit stream of non-negative draws. The game clock is a real-valued
  `elapsed` parameter. `sleep_for` after a timeout is left out because it changes no state.
- IEEE double rounding and overflow are replaced by exact reals. Infinity and NaN are explicit `Number` variants.
- `stod`'s number syntax (prefix parsing, `inf`/`nan` spellings) is a library outside this model and is a parameter.
- The `answered_correctly` and `skipped` fields of a question are never read by the core, and the failed-questions
  file format is part of I/O.
- Game.Submit: the score fields are unbounded integers; the `int` overflow of `total_score` after about 2·10^8
  correct answers is not modelled.
- Evaluator.EvaluateTokens: on malformed text the C++ evaluator reads an empty stack, which is undefined behaviour.
  The model answers `None` there. On text that leaves extra values, it answers the top value, as `values.top()`
  does. Only well-formed expressions are given a value by the theorems.
- Generator.GenerateRandomQuestion requires a level in 1..3. Its only caller passes the current level plus one,
  which lies in that range. The indeterminate value of `next` on the skip-after-`*`/`/` path is the parameter
  `stale`.
- Generator.GenerateRandomQuestion: at levels 2 and 3 the skip-after-`*`/`/` path can read `int next` (declared
  uninitialised at line 542) at line 574 before any pass assigns it. That read is undefined behaviour in standard
  C++ whatever the value. The model replaces it by the arbitrary value `stale(i)`, and its "not Undefined" covers
  only out-of-range conversions, `int` overflow and empty-stack reads. Even that is proved only when every such
  value lies in [1,45], the values an earlier pass could leave in `next`. Level 1 never reads it
  (Generator.LevelOneIgnoresStale).
- Game.StartLevel and Game.StartLevelAsWritten take the new question as an input. Nothing ties it to
  Generator.GenerateRandomQuestion for level `g.level + 1`, which is what line 853 calls, because the draws are an
  input too.
- Generator.GenerateDraft: the fact that the clean-divisor branch never fires at level 1 is not a separate lemma.
  Its consequence, a level-1 operand in [1,10], is stated directly.
- Game.Tick is the timeout test alone. A whole frame is `Game.FrameAsWritten`, the draw pass followed by the test.

Three behaviours of the code that are easy to misread, as the model has them:

- A zero denominator, such as `3/0`, parses as +infinity. Against a reference that is itself infinite, `fabs(inf - inf)` is
  NaN, and the comparison is false. So it is rejected against every reference (`Checker.ZeroDenominatorRejected`),
  not accepted against infinity.
- In exact arithmetic the near-integer test of `is_answer_correct` is redundant: anything it accepts is within 0.1
  (`Checker.AcceptsIff`). The example of 9.995 against `10` is accepted through the 0.1 test
  (`Checker.NearIntegerAccepted`).
- A generated answer need not be whole. A divisor is accepted when it divides four times the running value
  (`Generator.FractionalAnswer`).

## Findings

| source | as written | input that shows it | evidently intended | confidence | as-written member | corrected member |
|---|---|---|---|---|---|---|
| MathClash/src/main.cpp:291-292 | The draw pass of the playing screen sets `timeUp` once no time remains. It runs every frame before the timeout test at line 952, which does nothing when `timeUp` is set. | Level 1, in a frame whose draw pass and timeout test both read 20 s, the limit having passed after the previous frame's test: no penalty is charged and the level does not end. | Reaching the time limit costs 5 points, files the question and moves to the next level. | low, not executed: `window->display()` at line 945 waits for the 60-frame cap of line 872, and it lies between the two clock readings of a frame. So the limit usually passes in that wait and the penalty is charged. It is lost only when the limit passes between one frame's timeout test and the next frame's draw pass. | Game.LatchSwallowsTimeout | Game.Tick |
| MathClash/src/main.cpp:731 | `timeUp` is cleared only when a new game starts. The timeout at line 953 sets it, and the level start at lines 852-855 leaves it set. | A timeout in level 1, then any elapsed time in level 2 of the same game: the level-2 question never times out. | Each level's question has its own time limit. | medium, not executed | Game.LaterTimeoutIgnored | Game.StartLevel |

The whole-game theorems (`Game.WholeGame` and the `PlayOut` lemmas) use the corrected `Game.StartLevel`. They carry
over to the program as written: `Submit` never reads the timeout flag, and `Game.RoundIgnoresFlag` shows that a
round started with `Game.StartLevelAsWritten` differs only in that flag.
`Game.EveryLevelTimesOut` proves that with it every level's limit charges the penalty.
`Game.FramePenaltyWindow` and `Game.TimeoutLikeSkip` state what the timeout test does on its own.

=== FILE: arith.dfy ===
/**
 * The two arithmetic helpers of the expression evaluator: operator
 * precedence and the guarded application of one binary operator.
 * Doubles are modelled as exact reals.
 */
module Arith {

  /** Divisors whose magnitude is below this bound are treated as zero. */
  const DivisionEpsilon: real := 1e-9

  /** The value a division by (near) zero yields instead of failing. */
  const Sentinel: real := 1e99

  /** The four operators the game writes into its expressions. */
  predicate IsArith(c: char)
  {
    c == '+' || c == '-' || c == '*' || c == '/'
  }

  function Abs(x: real): (r: real)
    ensures r >= 0.0
    ensures r == x || r == -x
  {
    if x < 0.0 then -x else x
  }

  /** Binding strength of an operator character: 1 for `+ -`, 2 for `* /`, 0 for anything else. */
  function Precedence(op: char): (p: int)
    ensures 0 <= p <= 2
    ensures p == 1 <==> (op == '+' || op == '-')
    ensures p == 2 <==> (op == '*' || op == '/')
  {
    if op == '+' || op == '-' then 1
    else if op == '*' || op == '/' then 2
    else 0
  }

  /**
   * Applies `op` to `a` and `b`. Division by a divisor of magnitude below
   * DivisionEpsilon gives Sentinel; an unknown operator gives 0.
   */
  function ApplyOp(a: real, b: real, op: char): real
  {
    match op
    case '+' => a + b
    case '-' => a - b
    case '*' => a * b
    case '/' => if Abs(b) < DivisionEpsilon then Sentinel else a / b
    case _ => 0.0
  }

  /** ApplyOp is total: it gives the arithmetic result, Sentinel for a (near) zero divisor, and 0 for other characters. */
  lemma ApplyOpMeaning(a: real, b: real, op: char)
    ensures op == '+' ==> ApplyOp(a, b, op) == a + b
    ensures op == '-' ==> ApplyOp(a, b, op) == a - b
    ensures op == '*' ==> ApplyOp(a, b, op) == a * b
    ensures op == '/' && Abs(b) >= DivisionEpsilon ==> ApplyOp(a, b, op) * b == a
    ensures op == '/' && Abs(b) < DivisionEpsilon ==> ApplyOp(a, b, op) == Sentinel
    ensures !IsArith(op) ==> ApplyOp(a, b, op) == 0.0
  {
  }

  /**
   * How a division is carried out: the evaluator's guarded division, or
   * exact division, which is only defined for a non-zero divisor.
   */
  datatype Division = Guarded | Exact

  /** ApplyOp, or exact arithmetic in the Exact mode. */
  function Combine(d: Division, a: real, b: real, op: char): real
    requires d == Exact && op == '/' ==> b != 0.0
  {
    if d == Exact && op == '/' then a / b else ApplyOp(a, b, op)
  }

  /** The guard never fires on a divisor of magnitude at least one. */
  lemma CombineAgrees(a: real, b: real, op: char)
    requires op == '/' ==> Abs(b) >= 1.0
    ensures Combine(Guarded, a, b, op) == Combine(Exact, a, b, op)
  {
  }
}

=== FILE: checker.dfy ===
/**
 * evaluate_fractional_input and is_answer_correct: a typed answer, a plain
 * number or a fraction `a/b`, is parsed and compared with the reference under
 * a decimal tolerance of 0.1 and an integral tolerance of 0.01.
 * The library number parser is the parameter `stod`: None where it throws.
 */
module Checker {
  import opened Options
  import opened Arith

  /** A parsed double: finite, the infinity of a zero denominator, or the NaN of a failed fraction. */
  datatype Number = Finite(v: real) | PosInfinity | NotANumber

  const ExactTolerance: real := 0.01
  const DecimalTolerance: real := 0.1

  /** The position of the first `c` in `s`, or -1 (string::npos). */
  function Find(s: string, c: char): (k: int)
    ensures -1 <= k < |s|
    ensures k >= 0 ==> s[k] == c && c !in s[..k]
    ensures k < 0 ==> c !in s
  {
    if |s| == 0 then -1
    else if s[0] == c then 0
    else
      var k := Find(s[1..], c);
      assert k >= 0 ==> s[1..][..k] == s[1..k + 1];
      if k < 0 then -1 else k + 1
  }

  /** The value of a fraction whose two halves parsed as `num` and `den`. */
  function FractionOf(num: Option<real>, den: Option<real>): (r: Option<Number>)
    ensures r.Some?
    ensures num.None? || den.None? ==> r == Some(NotANumber)
    ensures num.Some? && den.Some? && Abs(den.value) >= DivisionEpsilon ==> r.value.Finite? && r.value.v * den.value == num.value
    ensures num.Some? && den.Some? && Abs(den.value) < DivisionEpsilon ==> r == Some(PosInfinity)
  {
    if num.Some? && den.Some? then
      if Abs(den.value) < DivisionEpsilon then Some(PosInfinity) else Some(Finite(num.value / den.value))
    else Some(NotANumber)
  }

  /**
   * evaluate_fractional_input. None is the exception that escapes when the
   * input has no slash and does not parse; a fraction never throws.
   */
  function EvaluateFractionalInput(input: string, stod: string -> Option<real>): (r: Option<Number>)
    ensures r.None? <==> '/' !in input && stod(input).None?
    ensures '/' !in input && r.Some? ==> r.value == Finite(stod(input).value)
  {
    var slash := Find(input, '/');
    if slash >= 0 then
      FractionOf(stod(input[..slash]), stod(input[slash + 1..]))
    else
      match stod(input)
      case None => None
      case Some(v) => Some(Finite(v))
  }

  /** `fabs(u - c) < tol` under IEEE rules: any comparison with an infinity difference or a NaN is false. */
  predicate Within(u: Number, c: Number, tol: real)
  {
    u.Finite? && c.Finite? && Abs(u.v - c.v) < tol
  }

  /** floor of a double; the floor of an infinity or a NaN is itself. */
  function FloorOf(c: Number): (f: Number)
    ensures f.Finite? <==> c.Finite?
    ensures f.Finite? ==> f.v <= c.v < f.v + 1.0 && f.v == f.v.Floor as real
  {
    if c.Finite? then Finite(c.v.Floor as real) else c
  }

  /** is_answer_correct: false on a parse exception, else the two tolerance tests. */
  function IsAnswerCorrect(input: string, correct: Number, stod: string -> Option<real>): (r: bool)
    ensures r ==> EvaluateFractionalInput(input, stod).Some? && EvaluateFractionalInput(input, stod).value.Finite?
    ensures r ==> correct.Finite?
  {
    match EvaluateFractionalInput(input, stod)
    case None => false
    case Some(u) =>
      || Within(u, correct, DecimalTolerance)
      || (Within(correct, FloorOf(correct), ExactTolerance) && Within(u, FloorOf(correct), ExactTolerance))
  }

  // ---------------------------------------------------------------------------
  // Parsing

  /** The input read as a plain number when it has no slash, as a fraction split at its first slash otherwise. */
  lemma ParseCases(input: string, stod: string -> Option<real>)
    ensures '/' !in input ==>
      EvaluateFractionalInput(input, stod) == (if stod(input).Some? then Some(Finite(stod(input).value)) else None)
    ensures forall a, b :: input == a + "/" + b && '/' !in a ==>
      EvaluateFractionalInput(input, stod) == FractionOf(stod(a), stod(b))
  {
    forall a, b | input == a + "/" + b && '/' !in a
      ensures EvaluateFractionalInput(input, stod) == FractionOf(stod(a), stod(b))
    {
      FirstSlash(a, b);
    }
  }

  lemma FirstSlash(a: string, b: string)
    requires '/' !in a
    ensures Find(a + "/" + b, '/') == |a|
    ensures (a + "/" + b)[..|a|] == a && (a + "/" + b)[|a| + 1..] == b
  {
    var s := a + "/" + b;
    var k := Find(s, '/');
    assert s[|a|] == '/';
    assert forall i :: 0 <= i < |a| ==> s[i] == a[i];
  }

  /** The checker never throws: a failed parse is a rejection. */
  lemma UnparseableRejected(input: string, correct: Number, stod: string -> Option<real>)
    requires EvaluateFractionalInput(input, stod).None?
    ensures '/' !in input && stod(input).None?
    ensures !IsAnswerCorrect(input, correct, stod)
  {
  }

  // ---------------------------------------------------------------------------
  // The decision

  /**
   * In exact arithmetic the integral path adds nothing: an answer is accepted
   * exactly when it parses to a finite number within 0.1 of a finite reference.
   */
  lemma {:induction false} AcceptsIff(input: string, correct: Number, stod: string -> Option<real>)
    ensures IsAnswerCorrect(input, correct, stod) <==>
      EvaluateFractionalInput(input, stod).Some? && Within(EvaluateFractionalInput(input, stod).value, correct, DecimalTolerance)
  {
    var r := EvaluateFractionalInput(input, stod);
    if r.Some? {
      var u := r.value;
      var f := FloorOf(correct);
      if Within(correct, f, ExactTolerance) && Within(u, f, ExactTolerance) {
        TriangleBound(u.v, f.v, correct.v);
      }
    }
  }

  lemma TriangleBound(u: real, f: real, c: real)
    requires Abs(c - f) < ExactTolerance && Abs(u - f) < ExactTolerance
    ensures Abs(u - c) < DecimalTolerance
  {
  }

  /** An infinite or NaN parse, or an infinite reference, is never accepted; nothing equals infinity. */
  lemma NonFiniteRejected(input: string, correct: Number, stod: string -> Option<real>)
    requires EvaluateFractionalInput(input, stod).Some?
    requires !EvaluateFractionalInput(input, stod).value.Finite? || !correct.Finite?
    ensures !IsAnswerCorrect(input, correct, stod)
  {
  }

  /** A zero denominator parses as infinity, which no reference matches, not even infinity itself. */
  lemma ZeroDenominatorRejected(a: string, b: string, correct: Number, stod: string -> Option<real>)
    requires '/' !in a
    requires stod(a).Some? && stod(b).Some? && Abs(stod(b).value) < DivisionEpsilon
    ensures EvaluateFractionalInput(a + "/" + b, stod) == Some(PosInfinity)
    ensures !IsAnswerCorrect(a + "/" + b, correct, stod)
  {
    FirstSlash(a, b);
  }

  /** A plain number is accepted against itself, and so is a fraction against its quotient. */
  lemma ExactAccepted(input: string, stod: string -> Option<real>)
    requires EvaluateFractionalInput(input, stod).Some? && EvaluateFractionalInput(input, stod).value.Finite?
    ensures IsAnswerCorrect(input, EvaluateFractionalInput(input, stod).value, stod)
  {
  }

  /** `1/2` is accepted for 0.5, for any parser that reads `1` and `2`. */
  lemma HalfAccepted(stod: string -> Option<real>)
    requires stod("1") == Some(1.0) && stod("2") == Some(2.0)
    ensures IsAnswerCorrect("1/2", Finite(0.5), stod)
  {
    FirstSlash("1", "2");
    assert "1" + "/" + "2" == "1/2";
  }

  /** `10` is accepted for 9.995 by the decimal path, although 9.995 is not near its floor 9. */
  lemma NearIntegerAccepted(stod: string -> Option<real>)
    requires stod("10") == Some(10.0)
    ensures IsAnswerCorrect("10", Finite(9.995), stod)
    ensures !Within(Finite(9.995), FloorOf(Finite(9.995)), ExactTolerance)
  {
    assert Find("10", '/') == -1;
    assert (9.995).Floor == 9;
  }
}

=== FILE: evaluator.dfy ===
/**
 * evaluate_expression: a two-stack evaluator of parenthesis-free infix
 * expressions, proved equal to the usual precedence grammar
 *   expr ::= expr (+|-) term | term      term ::= term (*|/) literal | literal
 * read left-associatively.
 */
module Evaluator {
  import opened Options
  import opened Arith
  import opened Lexer

  /** One `operator operand` pair following the leading operand. */
  datatype Link = Link(op: char, operand: int)

  /** An expression `lead op1 x1 op2 x2 ...`, as the question generator builds it. */
  datatype Expr = Expr(lead: int, links: seq<Link>)

  /** Every operand is a literal the scanner can read back (no minus sign). */
  predicate Literals(e: Expr)
  {
    e.lead >= 0 && forall i :: 0 <= i < |e.links| ==> e.links[i].operand >= 0
  }

  predicate ArithOps(links: seq<Link>)
  {
    forall i :: 0 <= i < |links| ==> IsArith(links[i].op)
  }

  predicate IsLow(op: char)
  {
    Precedence(op) == 1
  }

  /** The token list of an expression with literal operands. */
  function Tokens(e: Expr): (ts: seq<Token>)
    requires Literals(e)
    ensures |ts| == 2 * |e.links| + 1
    decreases |e.links|
  {
    if |e.links| == 0 then [Num(e.lead)]
    else
      var n := |e.links|;
      Tokens(Expr(e.lead, e.links[..n - 1])) + [Op(e.links[n - 1].op), Num(e.links[n - 1].operand)]
  }

  /** The text a string stream produces: the lead, then ` op operand` for every link. */
  function Show(e: Expr): string
    decreases |e.links|
  {
    if |e.links| == 0 then IntToString(e.lead)
    else
      var n := |e.links|;
      Show(Expr(e.lead, e.links[..n - 1])) + " " + [e.links[n - 1].op] + " " + IntToString(e.links[n - 1].operand)
  }

  // ---------------------------------------------------------------------------
  // Grammar semantics

  /** Index of the last `+`/`-` link, or -1 when there is none. */
  function LastLow(links: seq<Link>): (k: int)
    ensures -1 <= k < |links|
    ensures k >= 0 ==> IsLow(links[k].op)
  {
    if |links| == 0 then -1
    else if IsLow(links[|links| - 1].op) then |links| - 1
    else LastLow(links[..|links| - 1])
  }

  /** No `+`/`-` follows the one LastLow finds. */
  lemma {:induction false} LastLowIsLast(links: seq<Link>, j: int)
    requires LastLow(links) < j < |links|
    ensures !IsLow(links[j].op)
    decreases |links|
  {
    if j < |links| - 1 {
      var init := links[..|links| - 1];
      assert init[j] == links[j];
      LastLowIsLast(init, j);
    }
  }

  /** In exact mode every division must have a non-zero divisor. */
  predicate DivisionSafe(d: Division, links: seq<Link>)
  {
    d == Exact ==> forall i :: 0 <= i < |links| && links[i].op == '/' ==> links[i].operand != 0
  }

  /** A term `start op1 x1 ... opn xn` folded from the left. */
  function TermValue(d: Division, start: real, links: seq<Link>): real
    requires DivisionSafe(d, links)
    decreases |links|
  {
    if |links| == 0 then start
    else
      var n := |links|;
      Combine(d, TermValue(d, start, links[..n - 1]), links[n - 1].operand as real, links[n - 1].op)
  }

  /** The expression split at its last `+`/`-`: everything before it, combined with the term after it. */
  function ExprValue(d: Division, e: Expr): real
    requires DivisionSafe(d, e.links)
    decreases |e.links|
  {
    var k := LastLow(e.links);
    if k < 0 then TermValue(d, e.lead as real, e.links)
    else
      Combine(d, ExprValue(d, Expr(e.lead, e.links[..k])),
              TermValue(d, e.links[k].operand as real, e.links[k + 1..]), e.links[k].op)
  }

  // ---------------------------------------------------------------------------
  // The two-stack machine; the top of each stack is its last element

  datatype Stacks = Stacks(values: seq<real>, ops: seq<char>)

  /** Pops the top operator and two values and pushes their combination; None on an empty value stack. */
  function FoldTop(s: Stacks): (r: Option<Stacks>)
    requires |s.ops| > 0
    ensures r.Some? <==> |s.values| >= 2
    ensures r.Some? ==> r.value.ops == s.ops[..|s.ops| - 1]
    ensures r.Some? ==> |r.value.values| == |s.values| - 1
  {
    if |s.values| < 2 then None
    else
      var n := |s.values|;
      Some(Stacks(s.values[..n - 2] + [ApplyOp(s.values[n - 2], s.values[n - 1], s.ops[|s.ops| - 1])],
                  s.ops[..|s.ops| - 1]))
  }

  /** Folds while the top operator binds at least as tightly as precedence `p`. */
  function Reduce(s: Stacks, p: int): (r: Option<Stacks>)
    ensures r.Some? ==> |r.value.ops| <= |s.ops| && r.value.ops == s.ops[..|r.value.ops|]
    ensures r.Some? ==> |r.value.values| + |s.ops| == |s.values| + |r.value.ops|
    ensures r.Some? && |r.value.ops| > 0 ==> Precedence(r.value.ops[|r.value.ops| - 1]) < p
    ensures r.Some? ==> forall i :: |r.value.ops| <= i < |s.ops| ==> Precedence(s.ops[i]) >= p
    ensures |s.ops| == 0 ==> r == Some(s)
    decreases |s.ops|
  {
    if |s.ops| > 0 && Precedence(s.ops[|s.ops| - 1]) >= p then
      match FoldTop(s)
      case None => None
      case Some(t) => Reduce(t, p)
    else Some(s)
  }

  /** Folds every remaining operator, top first. */
  function FoldAll(s: Stacks): (r: Option<Stacks>)
    ensures r.Some? ==> r.value.ops == [] && |r.value.values| + |s.ops| == |s.values|
    ensures r.None? <==> 0 < |s.ops| && |s.values| <= |s.ops|
    decreases |s.ops|
  {
    if |s.ops| > 0 then
      match FoldTop(s)
      case None => None
      case Some(t) => FoldAll(t)
    else Some(s)
  }

  /** Literals minus operators: what one more value than operators on the stacks requires. */
  function Balance(ts: seq<Token>): int
  {
    if |ts| == 0 then 0 else Balance(ts[..|ts| - 1]) + (if ts[|ts| - 1].Num? then 1 else -1)
  }

  /** One token of the scan: a literal is pushed; an operator first reduces, then is pushed. */
  function Step(s: Stacks, t: Token): (r: Option<Stacks>)
    ensures t.Num? ==> r.Some?
    ensures t.Op? && r.Some? ==> |r.value.ops| > 0 && r.value.ops[|r.value.ops| - 1] == t.symbol
    ensures r.Some? ==> |r.value.values| - |r.value.ops| == |s.values| - |s.ops| + (if t.Num? then 1 else -1)
  {
    match t
    case Num(n) => Some(Stacks(s.values + [n as real], s.ops))
    case Op(c) =>
      match Reduce(s, Precedence(c))
      case None => None
      case Some(r) => Some(Stacks(r.values, r.ops + [c]))
  }

  /** The stacks after scanning all of `ts`, left to right. */
  function Process(ts: seq<Token>): (r: Option<Stacks>)
    ensures r.Some? ==> |r.value.values| - |r.value.ops| == Balance(ts)
  {
    if |ts| == 0 then Some(Stacks([], []))
    else
      match Process(ts[..|ts| - 1])
      case None => None
      case Some(s) => Step(s, ts[|ts| - 1])
  }

  /** The value on top of the operand stack once every operator is folded; None where the program would read an empty stack. */
  function EvaluateTokens(ts: seq<Token>): (r: Option<real>)
    ensures r.Some? <==> Process(ts).Some? && Balance(ts) >= 1
  {
    match Process(ts)
    case None => None
    case Some(s) =>
      match FoldAll(s)
      case None => None
      case Some(f) => if |f.values| == 0 then None else Some(f.values[|f.values| - 1])
  }

  function EvaluateExpression(text: string): Option<real>
  {
    EvaluateTokens(Scan(text))
  }

  // ---------------------------------------------------------------------------
  // Equivalence of the machine and the grammar

  /** The stacks the machine holds after reading all of `e`: the part before the last `+`/`-`, then the current term. */
  function Expected(e: Expr): Stacks
  {
    OnStacks(Pending(e), TermStart(e), CurrentTerm(e))
  }

  /** The value before the last `+`/`-` and that operator, or nothing when there is none. */
  function Pending(e: Expr): (s: Stacks)
    ensures |s.values| == |s.ops| <= 1
    ensures |s.ops| == 1 ==> IsLow(s.ops[0])
  {
    var k := LastLow(e.links);
    if k < 0 then Stacks([], [])
    else Stacks([ExprValue(Guarded, Expr(e.lead, e.links[..k]))], [e.links[k].op])
  }

  /** The first operand of the current term. */
  function TermStart(e: Expr): real
  {
    var k := LastLow(e.links);
    if k < 0 then e.lead as real else e.links[k].operand as real
  }

  /** The links of the current term, all of them `*` or `/`. */
  function CurrentTerm(e: Expr): seq<Link>
  {
    e.links[LastLow(e.links) + 1..]
  }

  /** A term on top of `pre`: the term's folded prefix and its last literal, with its last operator pending. */
  function OnStacks(pre: Stacks, start: real, t: seq<Link>): Stacks
  {
    if |t| == 0 then Stacks(pre.values + [start], pre.ops)
    else Stacks(pre.values + [TermValue(Guarded, start, t[..|t| - 1]), t[|t| - 1].operand as real],
                pre.ops + [t[|t| - 1].op])
  }

  /** Folding the pending `*`/`/` of a term leaves the term's value. */
  lemma FoldTerm(pre: Stacks, start: real, t: seq<Link>)
    requires |t| > 0
    ensures FoldTop(OnStacks(pre, start, t)) == Some(Stacks(pre.values + [TermValue(Guarded, start, t)], pre.ops))
  {
    var init, last := t[..|t| - 1], t[|t| - 1];
    var a := TermValue(Guarded, start, init);
    assert TermValue(Guarded, start, t) == ApplyOp(a, last.operand as real, last.op);
    var s := OnStacks(pre, start, t);
    var n := |s.values|;
    assert s.values[n - 2] == a && s.values[n - 1] == last.operand as real;
    assert s.values[..n - 2] == pre.values;
    assert s.ops[..|s.ops| - 1] == pre.ops;
    assert s.ops[|s.ops| - 1] == last.op;
  }

  /** Folding a pending `+`/`-` combines its two sides. */
  lemma FoldLow(x: real, op: char, v: real)
    ensures FoldTop(Stacks([x, v], [op])) == Some(Stacks([ApplyOp(x, v, op)], []))
  {
    assert [x, v][..0] == [] && [op][..0] == [];
    assert [] + [ApplyOp(x, v, op)] == [ApplyOp(x, v, op)];
  }

  /** A `+`/`-` folds the whole machine state: the current term, then the pending part. */
  lemma ReduceAll(pre: Stacks, start: real, t: seq<Link>, p: int)
    requires |pre.values| == |pre.ops| <= 1 && (|pre.ops| == 1 ==> IsLow(pre.ops[0]))
    requires |t| > 0 ==> Precedence(t[|t| - 1].op) == 2
    requires p <= 1
    ensures Reduce(OnStacks(pre, start, t), p) == FoldAll(OnStacks(pre, start, t))
    ensures FoldAll(OnStacks(pre, start, t)) ==
      Some(Stacks([if |pre.ops| == 0 then TermValue(Guarded, start, t)
                   else ApplyOp(pre.values[0], TermValue(Guarded, start, t), pre.ops[0])], []))
  {
    var s := OnStacks(pre, start, t);
    var v := TermValue(Guarded, start, t);
    var mid := Stacks(pre.values + [v], pre.ops);
    if |t| > 0 {
      FoldTerm(pre, start, t);
      assert Reduce(s, p) == Reduce(mid, p);
      assert FoldAll(s) == FoldAll(mid);
    } else {
      assert s == mid;
    }
    if |pre.ops| == 1 {
      assert mid == Stacks([pre.values[0], v], [pre.ops[0]]);
      FoldLow(pre.values[0], pre.ops[0], v);
      var w := ApplyOp(pre.values[0], v, pre.ops[0]);
      assert Reduce(mid, p) == Reduce(Stacks([w], []), p);
      assert FoldAll(mid) == FoldAll(Stacks([w], []));
    } else {
      assert mid == Stacks([v], []);
    }
  }

  /** A `*`/`/` folds only the current term's pending operator, never the pending `+`/`-`. */
  lemma ReduceTerm(pre: Stacks, start: real, t: seq<Link>)
    requires |pre.values| == |pre.ops| <= 1 && (|pre.ops| == 1 ==> IsLow(pre.ops[0]))
    requires |t| > 0 ==> Precedence(t[|t| - 1].op) == 2
    ensures Reduce(OnStacks(pre, start, t), 2) == Some(Stacks(pre.values + [TermValue(Guarded, start, t)], pre.ops))
  {
    var s := OnStacks(pre, start, t);
    var mid := Stacks(pre.values + [TermValue(Guarded, start, t)], pre.ops);
    if |t| > 0 {
      FoldTerm(pre, start, t);
      assert Reduce(s, 2) == Reduce(mid, 2);
    } else {
      assert s == mid;
    }
  }

  /** The current term ends in `*` or `/`. */
  lemma CurrentTermHigh(e: Expr)
    requires ArithOps(e.links)
    ensures |CurrentTerm(e)| > 0 ==> Precedence(CurrentTerm(e)[|CurrentTerm(e)| - 1].op) == 2
  {
    var t := CurrentTerm(e);
    if |t| > 0 {
      assert t[|t| - 1] == e.links[|e.links| - 1];
      LastLowIsLast(e.links, |e.links| - 1);
    }
  }

  lemma ValueSplit(e: Expr)
    ensures ExprValue(Guarded, e) ==
      if |Pending(e).ops| == 0 then TermValue(Guarded, TermStart(e), CurrentTerm(e))
      else ApplyOp(Pending(e).values[0], TermValue(Guarded, TermStart(e), CurrentTerm(e)), Pending(e).ops[0])
  {
    assert e.links[0..] == e.links;
  }

  /** Everything the machine holds folds down to the expression's value, for Reduce at `+`/`-` and for FoldAll alike. */
  lemma CollapseExpected(e: Expr)
    requires ArithOps(e.links)
    ensures Reduce(Expected(e), 1) == Some(Stacks([ExprValue(Guarded, e)], []))
    ensures FoldAll(Expected(e)) == Some(Stacks([ExprValue(Guarded, e)], []))
  {
    CurrentTermHigh(e);
    ReduceAll(Pending(e), TermStart(e), CurrentTerm(e), 1);
    ValueSplit(e);
  }

  lemma StepLow(e: Expr, l: Link)
    requires ArithOps(e.links) && IsLow(l.op) && l.operand >= 0
    ensures Step(Expected(e), Op(l.op)) == Some(Stacks([ExprValue(Guarded, e)], [l.op]))
    ensures Expected(Expr(e.lead, e.links + [l])) == Stacks([ExprValue(Guarded, e), l.operand as real], [l.op])
  {
    CollapseExpected(e);
    assert [] + [l.op] == [l.op];
    var L' := e.links + [l];
    var e' := Expr(e.lead, L');
    assert L'[..|e.links|] == e.links;
    assert LastLow(L') == |e.links|;
    assert Pending(e') == Stacks([ExprValue(Guarded, e)], [l.op]);
    assert CurrentTerm(e') == [];
  }

  /** Appending a `*`/`/` link extends the current term and leaves the pending part alone. */
  lemma ExtendTerm(e: Expr, l: Link)
    requires !IsLow(l.op)
    ensures Pending(Expr(e.lead, e.links + [l])) == Pending(e)
    ensures TermStart(Expr(e.lead, e.links + [l])) == TermStart(e)
    ensures CurrentTerm(Expr(e.lead, e.links + [l])) == CurrentTerm(e) + [l]
  {
    var L, L' := e.links, e.links + [l];
    var k := LastLow(L);
    LastLowAfterHigh(L, l);
    assert L'[k + 1..] == L[k + 1..] + [l];
    if k >= 0 {
      assert L'[..k] == L[..k];
    }
  }

  lemma LastLowAfterHigh(L: seq<Link>, l: Link)
    requires !IsLow(l.op)
    ensures LastLow(L + [l]) == LastLow(L)
  {
    assert (L + [l])[..|L|] == L;
  }

  /** A push of the new term operand onto the reduced stacks. */
  lemma PushTerm(pre: Stacks, start: real, t: seq<Link>, l: Link)
    ensures OnStacks(pre, start, t + [l]) ==
      Stacks(pre.values + [TermValue(Guarded, start, t)] + [l.operand as real], pre.ops + [l.op])
  {
    assert (t + [l])[..|t|] == t;
  }

  lemma StepHigh(e: Expr, l: Link)
    requires ArithOps(e.links) && IsArith(l.op) && !IsLow(l.op) && l.operand >= 0
    ensures Step(Expected(e), Op(l.op)).Some?
    ensures Step(Step(Expected(e), Op(l.op)).value, Num(l.operand)) == Some(Expected(Expr(e.lead, e.links + [l])))
  {
    var pre, start, t := Pending(e), TermStart(e), CurrentTerm(e);
    ExtendTerm(e, l);
    CurrentTermHigh(e);
    ReduceTerm(pre, start, t);
    PushTerm(pre, start, t, l);
    assert Precedence(l.op) == 2;
  }

  lemma StepExpected(e: Expr, l: Link)
    requires ArithOps(e.links) && IsArith(l.op) && l.operand >= 0
    ensures Step(Expected(e), Op(l.op)).Some?
    ensures Step(Step(Expected(e), Op(l.op)).value, Num(l.operand)) == Some(Expected(Expr(e.lead, e.links + [l])))
  {
    if IsLow(l.op) {
      StepLow(e, l);
    } else {
      StepHigh(e, l);
    }
  }

  /** Scanning two more tokens is two more machine steps. */
  lemma ProcessOne(ts: seq<Token>, a: Token, s: Stacks)
    requires Process(ts) == Some(s)
    ensures Process(ts + [a]) == Step(s, a)
  {
    assert (ts + [a])[..|ts|] == ts;
  }

  lemma ProcessPair(ts: seq<Token>, a: Token, b: Token, s: Stacks, s': Stacks)
    requires Process(ts) == Some(s) && Step(s, a) == Some(s')
    ensures Process(ts + [a, b]) == Step(s', b)
  {
    ProcessOne(ts, a, s);
    assert ts + [a, b] == (ts + [a]) + [b];
    ProcessOne(ts + [a], b, s');
  }

  lemma {:induction false} ProcessExpected(e: Expr)
    requires Literals(e) && ArithOps(e.links)
    ensures Process(Tokens(e)) == Some(Expected(e))
    decreases |e.links|
  {
    var n := |e.links|;
    if n == 0 {
      assert Tokens(e)[..0] == [];
      assert e.links[0..] == [];
    } else {
      var init := Expr(e.lead, e.links[..n - 1]);
      var l := e.links[n - 1];
      assert Literals(init) && ArithOps(init.links);
      assert init.links + [l] == e.links;
      ProcessExpected(init);
      StepExpected(init, l);
      ProcessPair(Tokens(init), Op(l.op), Num(l.operand), Expected(init), Step(Expected(init), Op(l.op)).value);
    }
  }

  /** The two-stack evaluator computes the grammar's value of every well-formed expression. */
  lemma StackMachineMatchesGrammar(e: Expr)
    requires Literals(e) && ArithOps(e.links)
    ensures EvaluateTokens(Tokens(e)) == Some(ExprValue(Guarded, e))
  {
    ProcessExpected(e);
    CollapseExpected(e);
  }

  /** The generator's text scans back to the expression's tokens. */
  lemma {:induction false} ShowIsRender(e: Expr)
    requires Literals(e)
    ensures Show(e) == Render(Tokens(e))
    decreases |e.links|
  {
    var n := |e.links|;
    if n > 0 {
      var init := Expr(e.lead, e.links[..n - 1]);
      var l := e.links[n - 1];
      assert Literals(init);
      ShowIsRender(init);
      var ts := Tokens(init);
      var ts' := ts + [Op(l.op), Num(l.operand)];
      assert ts'[..|ts'| - 1] == ts + [Op(l.op)];
      assert (ts + [Op(l.op)])[..|ts|] == ts;
    }
  }

  lemma RenderableTokens(e: Expr)
    requires Literals(e) && ArithOps(e.links)
    ensures Renderable(Tokens(e))
    decreases |e.links|
  {
    var n := |e.links|;
    if n > 0 {
      var init := Expr(e.lead, e.links[..n - 1]);
      assert Literals(init) && ArithOps(init.links);
      RenderableTokens(init);
      assert IsArith(e.links[n - 1].op);
    }
  }

  /** Rendering tokens with single spaces and evaluating the text is evaluating the tokens. */
  lemma EvaluateRendered(ts: seq<Token>)
    requires Renderable(ts)
    ensures EvaluateExpression(Render(ts)) == EvaluateTokens(ts)
  {
    ScanRender(ts);
  }

  /** Evaluating the printed text of a well-formed expression gives its grammar value. */
  lemma EvaluateShown(e: Expr)
    requires Literals(e) && ArithOps(e.links)
    ensures EvaluateExpression(Show(e)) == Some(ExprValue(Guarded, e))
  {
    ShowIsRender(e);
    RenderableTokens(e);
    EvaluateRendered(Tokens(e));
    StackMachineMatchesGrammar(e);
  }

  // ---------------------------------------------------------------------------
  // The division guard

  lemma SafeSlice(d: Division, links: seq<Link>, a: int, b: int)
    requires 0 <= a <= b <= |links| && DivisionSafe(d, links)
    ensures DivisionSafe(d, links[a..b])
  {
    var s := links[a..b];
    forall j | 0 <= j < |s| ensures s[j] == links[a + j] {
    }
  }

  lemma {:induction false} TermWithoutSentinel(start: real, links: seq<Link>)
    requires DivisionSafe(Exact, links)
    ensures TermValue(Guarded, start, links) == TermValue(Exact, start, links)
    decreases |links|
  {
    var n := |links|;
    if n > 0 {
      SafeSlice(Exact, links, 0, n - 1);
      TermWithoutSentinel(start, links[..n - 1]);
      var x := links[n - 1].operand;
      assert links[n - 1].op == '/' ==> Abs(x as real) >= 1.0;
      CombineAgrees(TermValue(Exact, start, links[..n - 1]), x as real, links[n - 1].op);
    }
  }

  /** When no divisor literal is zero, the 1e99 guard never changes the value: evaluation is exact. */
  lemma {:induction false} NoSentinel(e: Expr)
    requires DivisionSafe(Exact, e.links)
    ensures ExprValue(Guarded, e) == ExprValue(Exact, e)
    decreases |e.links|
  {
    var k := LastLow(e.links);
    if k < 0 {
      TermWithoutSentinel(e.lead as real, e.links);
    } else {
      var L := e.links;
      SafeSlice(Exact, L, 0, k);
      SafeSlice(Exact, L, k + 1, |L|);
      assert L[0..k] == L[..k] && L[k + 1..|L|] == L[k + 1..];
      NoSentinel(Expr(e.lead, L[..k]));
      TermWithoutSentinel(L[k].operand as real, L[k + 1..]);
    }
  }

  // ---------------------------------------------------------------------------
  // Worked examples

  /** The text of `lead op operand` followed by one more link. */
  lemma ShowTwo(lead: nat, a: Link, b: Link)
    requires a.operand >= 0 && b.operand >= 0
    ensures Show(Expr(lead, [a, b])) ==
            NatToString(lead) + " " + [a.op] + " " + NatToString(a.operand) + " " + [b.op] + " " + NatToString(b.operand)
  {
    var e := Expr(lead, [a, b]);
    assert e.links[..1] == [a];
    assert [a][..0] == [];
    assert Show(Expr(lead, [])) == NatToString(lead);
    assert Show(Expr(lead, [a])) == NatToString(lead) + " " + [a.op] + " " + NatToString(a.operand);
  }

  /** A two-link expression whose last `+`/`-` is at `k`, evaluated by the grammar. */
  lemma ValueTwo(lead: nat, a: Link, b: Link)
    requires IsArith(a.op) && IsArith(b.op)
    ensures IsLow(b.op) ==>
      ExprValue(Guarded, Expr(lead, [a, b])) ==
      ApplyOp(ExprValue(Guarded, Expr(lead, [a])), b.operand as real, b.op)
    ensures IsLow(a.op) && !IsLow(b.op) ==>
      ExprValue(Guarded, Expr(lead, [a, b])) ==
      ApplyOp(lead as real, ApplyOp(a.operand as real, b.operand as real, b.op), a.op)
    ensures IsLow(a.op) ==> ExprValue(Guarded, Expr(lead, [a])) == ApplyOp(lead as real, a.operand as real, a.op)
  {
    var L := [a, b];
    assert L[..1] == [a] && L[2..] == [] && L[1..] == [b];
    assert [a][..0] == [] && [a][1..] == [];
  }

  /** Subtraction groups to the left: a - b - c is (a - b) - c. */
  lemma LeftAssociative(a: nat, b: nat, c: nat)
    ensures EvaluateExpression(Show(Expr(a, [Link('-', b), Link('-', c)]))) == Some(a as real - b as real - c as real)
  {
    var e := Expr(a, [Link('-', b), Link('-', c)]);
    EvaluateShown(e);
    ValueTwo(a, Link('-', b), Link('-', c));
    ApplyOpMeaning(a as real, b as real, '-');
    ApplyOpMeaning(a as real - b as real, c as real, '-');
  }

  /** Multiplication binds tighter than addition: a + b * c is a + (b * c). */
  lemma MultiplicationFirst(a: nat, b: nat, c: nat)
    ensures EvaluateExpression(Show(Expr(a, [Link('+', b), Link('*', c)]))) == Some(a as real + b as real * c as real)
  {
    var e := Expr(a, [Link('+', b), Link('*', c)]);
    EvaluateShown(e);
    ValueTwo(a, Link('+', b), Link('*', c));
    ApplyOpMeaning(b as real, c as real, '*');
    ApplyOpMeaning(a as real, b as real * c as real, '+');
  }

  /** Division binds tighter than subtraction: a - b / c is a - (b / c). */
  lemma DivisionFirst(a: nat, b: nat, c: nat)
    requires c >= 1
    ensures EvaluateExpression(Show(Expr(a, [Link('-', b), Link('/', c)]))) == Some(a as real - b as real / c as real)
  {
    var e := Expr(a, [Link('-', b), Link('/', c)]);
    EvaluateShown(e);
    ValueTwo(a, Link('-', b), Link('/', c));
    ApplyOpMeaning(b as real, c as real, '/');
    ApplyOpMeaning(a as real, b as real / c as real, '-');
  }

  /** The texts of the three examples above for 10, 3, 2; 2, 3, 4; and 10, 4, 2. */
  lemma LeftAssociativeText()
    ensures Show(Expr(10, [Link('-', 3), Link('-', 2)])) == "10 - 3 - 2"
  {
    assert NatToString(10) == "10" && NatToString(3) == "3" && NatToString(2) == "2";
    ShowTwo(10, Link('-', 3), Link('-', 2));
  }

  lemma MultiplicationFirstText()
    ensures Show(Expr(2, [Link('+', 3), Link('*', 4)])) == "2 + 3 * 4"
  {
    assert NatToString(2) == "2" && NatToString(3) == "3" && NatToString(4) == "4";
    ShowTwo(2, Link('+', 3), Link('*', 4));
  }

  lemma DivisionFirstText()
    ensures Show(Expr(10, [Link('-', 4), Link('/', 2)])) == "10 - 4 / 2"
  {
    assert NatToString(10) == "10" && NatToString(4) == "4" && NatToString(2) == "2";
    ShowTwo(10, Link('-', 4), Link('/', 2));
  }
}

=== FILE: game.dfy ===
/**
 * The round and scoring state machine: answering a question, the per-level
 * timeout, the retry-failed screen and update_user_record. Every handler is a
 * pure transition from one Game record to the next; mouse hit-testing is
 * replaced by the choice of transition, and the answer checker's verdict is
 * an input.
 */
module Game {
  import opened Options
  import opened Checker
  import opened Generator

  datatype Screen = AuthMenu | MainMenu | PlayingLevel | Dashboard | Leaderboard | RetryFailed | LevelStart | LevelEnd

  datatype User = User(username: string, password: string, totalScore: int,
                       gamesPlayed: int, gamesWon: int, gamesLost: int, failed: seq<Question>)

  /** The program's globals that the core reads and writes. */
  datatype Game = Game(users: seq<User>, current: User, screen: Screen, level: int, levelScore: int,
                       input: string, question: Question, gameStarted: bool, timeUp: bool, message: string)

  const Levels: int := 3
  const TimeLimits: seq<int> := [20, 15, 10]
  const Credit: int := 10
  const Penalty: int := 5
  const PassedMessage: string := "LEVEL PASSED! "
  const FailedMessage: string := "LEVEL FAILED! "

  // ---------------------------------------------------------------------------
  // update_user_record

  /** The index of the first user called `name`, or -1. */
  function FirstNamed(users: seq<User>, name: string): (k: int)
    ensures -1 <= k < |users|
    ensures k >= 0 ==> users[k].username == name
    ensures forall j :: 0 <= j < |users| && (k < 0 || j < k) ==> users[j].username != name
  {
    if |users| == 0 then -1
    else if users[0].username == name then 0
    else
      var k := FirstNamed(users[1..], name);
      if k < 0 then -1 else k + 1
  }

  /** update_user_record: the first record with the same username is replaced, otherwise the user is appended. */
  function UpdateUserRecord(users: seq<User>, u: User): (r: seq<User>)
    ensures FirstNamed(users, u.username) >= 0 ==> r == users[FirstNamed(users, u.username) := u]
    ensures FirstNamed(users, u.username) < 0 ==> r == users + [u]
  {
    if |users| == 0 then [u]
    else if users[0].username == u.username then [u] + users[1..]
    else [users[0]] + UpdateUserRecord(users[1..], u)
  }

  lemma {:induction false} FirstNamedAt(users: seq<User>, name: string, k: int)
    requires 0 <= k < |users| && users[k].username == name
    requires forall j :: 0 <= j < k ==> users[j].username != name
    ensures FirstNamed(users, name) == k
  {
    if k > 0 {
      var tail := users[1..];
      forall j | 0 <= j < k - 1 ensures tail[j].username != name {
        assert tail[j] == users[j + 1];
      }
      FirstNamedAt(tail, name, k - 1);
    }
  }

  /** After an update, looking the user up by name finds exactly the record saved. */
  lemma UpdateFinds(users: seq<User>, u: User)
    ensures FirstNamed(UpdateUserRecord(users, u), u.username) >= 0
    ensures UpdateUserRecord(users, u)[FirstNamed(UpdateUserRecord(users, u), u.username)] == u
    ensures |UpdateUserRecord(users, u)| == |users| + (if FirstNamed(users, u.username) < 0 then 1 else 0)
  {
    var r := UpdateUserRecord(users, u);
    var k := FirstNamed(users, u.username);
    if k >= 0 {
      FirstNamedAt(r, u.username, k);
    } else {
      FirstNamedAt(r, u.username, |users|);
    }
  }

  /** Saving the same user twice is saving once (save_users calls update_user_record again). */
  lemma UpdateIdempotent(users: seq<User>, u: User)
    ensures UpdateUserRecord(UpdateUserRecord(users, u), u) == UpdateUserRecord(users, u)
  {
    var r := UpdateUserRecord(users, u);
    UpdateFinds(users, u);
    var k := FirstNamed(r, u.username);
    assert r[k := u] == r;
  }

  /** Every other record is left as it was. */
  lemma UpdateKeepsOthers(users: seq<User>, u: User, j: int)
    requires 0 <= j < |users| && j != FirstNamed(users, u.username)
    ensures UpdateUserRecord(users, u)[j] == users[j]
  {
  }

  // ---------------------------------------------------------------------------
  // The invariant

  /** Every finished game was won or lost. */
  predicate Tallied(u: User)
  {
    0 <= u.gamesWon && 0 <= u.gamesLost && u.gamesWon + u.gamesLost == u.gamesPlayed
  }

  predicate AllTallied(users: seq<User>)
  {
    forall i :: 0 <= i < |users| ==> Tallied(users[i])
  }

  /** Between levels and during one the level index selects a time limit; after the last it is 3. */
  predicate Valid(g: Game)
  {
    && Tallied(g.current)
    && AllTallied(g.users)
    && ((g.screen == LevelStart || g.screen == PlayingLevel) ==> 0 <= g.level < Levels)
    && (g.screen == LevelEnd ==> g.level == Levels)
  }

  lemma UpdateTallied(users: seq<User>, u: User)
    ensures AllTallied(users) && Tallied(u) ==> AllTallied(UpdateUserRecord(users, u))
  {
  }

  // ---------------------------------------------------------------------------
  // Rounds

  predicate Skipped(input: string)
  {
    input == "s" || input == "S"
  }

  /** The score change of a round: a credited answer against a skip, a wrong answer or a timeout. */
  function Delta(credited: bool): int
  {
    if credited then Credit else -Penalty
  }

  /** The user after a round: the score moves by the delta and a missed question is filed. */
  function Charge(u: User, q: Question, credited: bool): (r: User)
    ensures credited <==> r.totalScore > u.totalScore
    ensures credited <==> r.failed == u.failed
    ensures !credited ==> r.failed == u.failed + [q]
    ensures r.(totalScore := u.totalScore, failed := u.failed) == u
  {
    u.(totalScore := u.totalScore + Delta(credited), failed := if credited then u.failed else u.failed + [q])
  }

  /** After the third level the game counts as won when the level score is positive, lost otherwise. */
  function Finish(g: Game): (r: Game)
    ensures r.screen == LevelEnd && r.current.gamesPlayed == g.current.gamesPlayed + 1
    ensures g.levelScore > 0 ==> r.current.gamesWon == g.current.gamesWon + 1 && r.current.gamesLost == g.current.gamesLost
    ensures g.levelScore <= 0 ==> r.current.gamesLost == g.current.gamesLost + 1 && r.current.gamesWon == g.current.gamesWon
    ensures r.message == if g.levelScore > 0 then PassedMessage else FailedMessage
    ensures Tallied(g.current) ==> Tallied(r.current)
    ensures r.(screen := g.screen, message := g.message, current := g.current) == g
    ensures r.current.(gamesPlayed := g.current.gamesPlayed, gamesWon := g.current.gamesWon, gamesLost := g.current.gamesLost) == g.current
  {
    var u := g.current;
    var u' := if g.levelScore > 0 then u.(gamesWon := u.gamesWon + 1) else u.(gamesLost := u.gamesLost + 1);
    g.(current := u'.(gamesPlayed := u.gamesPlayed + 1), screen := LevelEnd,
       message := if g.levelScore > 0 then PassedMessage else FailedMessage)
  }

  /** The input is cleared and the level advances, to the next level's start or to the end of the game. */
  function Advance(g: Game): (r: Game)
    ensures r.level == g.level + 1 && r.input == ""
    ensures r.users == g.users && r.levelScore == g.levelScore && r.question == g.question
    ensures r.timeUp == g.timeUp && r.gameStarted == g.gameStarted
    ensures r.current.username == g.current.username && r.current.totalScore == g.current.totalScore
    ensures r.current.failed == g.current.failed
    ensures r.level < Levels ==> r.screen == LevelStart && r.current == g.current
    ensures r.level >= Levels ==> r.screen == LevelEnd && r.current.gamesPlayed == g.current.gamesPlayed + 1
    ensures r.level >= Levels && g.levelScore > 0 ==>
      r.current.gamesWon == g.current.gamesWon + 1 && r.current.gamesLost == g.current.gamesLost && r.message == PassedMessage
    ensures r.level >= Levels && g.levelScore <= 0 ==>
      r.current.gamesLost == g.current.gamesLost + 1 && r.current.gamesWon == g.current.gamesWon && r.message == FailedMessage
    ensures Tallied(g.current) ==> Tallied(r.current)
    ensures AllTallied(g.users) && Tallied(g.current) && 0 <= g.level < Levels ==> Valid(r)
  {
    var g' := g.(input := "", level := g.level + 1);
    if g'.level < Levels then g'.(screen := LevelStart) else Finish(g')
  }

  /**
   * The submit button during a level. A skip or a wrong answer costs 5 and
   * files the question; a correct one earns 10. The stored record is updated
   * before the games counters move.
   */
  function Submit(g: Game, verdict: bool): (r: Game)
    requires g.screen == PlayingLevel
    ensures r.current.totalScore - g.current.totalScore == r.levelScore - g.levelScore
    ensures r.levelScore - g.levelScore == if !Skipped(g.input) && verdict then Credit else -Penalty
    ensures r.current.failed == if !Skipped(g.input) && verdict then g.current.failed else g.current.failed + [g.question]
    ensures r.level == g.level + 1 && r.input == ""
    ensures r.level < Levels ==> r.screen == LevelStart && r.current.gamesPlayed == g.current.gamesPlayed
    ensures r.level < Levels ==> r.current.gamesWon == g.current.gamesWon && r.current.gamesLost == g.current.gamesLost
    ensures r.level >= Levels ==> r.screen == LevelEnd && r.current.gamesPlayed == g.current.gamesPlayed + 1
    ensures r.level >= Levels && r.levelScore > 0 ==>
      r.current.gamesWon == g.current.gamesWon + 1 && r.current.gamesLost == g.current.gamesLost && r.message == PassedMessage
    ensures r.level >= Levels && r.levelScore <= 0 ==>
      r.current.gamesLost == g.current.gamesLost + 1 && r.current.gamesWon == g.current.gamesWon && r.message == FailedMessage
    ensures var k := FirstNamed(r.users, g.current.username);
      && k >= 0
      && r.users[k].totalScore == r.current.totalScore
      && r.users[k].failed == r.current.failed
      && r.users[k].gamesPlayed == g.current.gamesPlayed
    ensures r.users == UpdateUserRecord(g.users, Charge(g.current, g.question, !Skipped(g.input) && verdict))
    ensures r.question == g.question && r.timeUp == g.timeUp && r.gameStarted == g.gameStarted
    ensures Valid(g) ==> Valid(r)
  {
    var credited := !Skipped(g.input) && verdict;
    var u := Charge(g.current, g.question, credited);
    UpdateFinds(g.users, u);
    UpdateTallied(g.users, u);
    var g' := g.(current := u, users := UpdateUserRecord(g.users, u), levelScore := g.levelScore + Delta(credited));
    assert Tallied(g.current) ==> Tallied(u);
    Advance(g')
  }

  /**
   * The timeout test after each frame: once the level's time limit has
   * passed, and unless the flag is already set, the question is lost as if
   * skipped. The stored record is not updated.
   */
  function Tick(g: Game, elapsed: real): (r: Game)
    requires g.screen == PlayingLevel && 0 <= g.level < Levels
    ensures r != g <==> elapsed >= TimeLimits[g.level] as real && !g.timeUp
    ensures r != g ==> r.timeUp && r.users == g.users && r.level == g.level + 1
    ensures r != g ==> r.current.totalScore == g.current.totalScore - Penalty && r.levelScore == g.levelScore - Penalty
    ensures r != g ==> r.current.failed == g.current.failed + [g.question]
    ensures Valid(g) ==> Valid(r)
  {
    if elapsed >= TimeLimits[g.level] as real && !g.timeUp then
      var r := Advance(g.(timeUp := true, current := Charge(g.current, g.question, false),
                          levelScore := g.levelScore - Penalty));
      assert r.level != g.level;
      r
    else g
  }

  /** A timeout scores like a skipped question, except that the stored record is not updated. */
  lemma TimeoutLikeSkip(g: Game, elapsed: real)
    requires g.screen == PlayingLevel && 0 <= g.level < Levels
    requires elapsed >= TimeLimits[g.level] as real && !g.timeUp
    ensures Tick(g, elapsed) == Submit(g.(input := "s"), true).(users := g.users, timeUp := true)
  {
  }

  /** Once the flag is set, no clock reading changes anything. */
  lemma FlagStopsTimeout(g: Game, elapsed: real)
    requires g.screen == PlayingLevel && 0 <= g.level < Levels && g.timeUp
    ensures Tick(g, elapsed) == g
  {
  }

  /** The main-menu start button: a new game from the first level. */
  function StartGame(g: Game): (r: Game)
    requires g.screen == MainMenu
    ensures r.screen == LevelStart && r.level == 0 && r.levelScore == 0 && r.input == ""
    ensures r.gameStarted && !r.timeUp
    ensures r.current == g.current && r.users == g.users
    ensures Valid(g) ==> Valid(r)
  {
    g.(screen := LevelStart, level := 0, gameStarted := true, timeUp := false, input := "", levelScore := 0)
  }

  /**
   * The click that starts a level, as written: the timeout flag keeps whatever
   * value it had. `q` stands for the question generate_random_question returns
   * for level `g.level + 1`; it is an input here because the draws are, and
   * nothing in this module ties it to Generator.GenerateRandomQuestion.
   */
  function StartLevelAsWritten(g: Game, q: Question): (r: Game)
    requires g.screen == LevelStart
    ensures r.screen == PlayingLevel && r.question == q && r.timeUp == g.timeUp
    ensures r.(screen := g.screen, question := g.question) == g
    ensures Valid(g) ==> Valid(r)
  {
    g.(screen := PlayingLevel, question := q)
  }

  /** The click that starts a level, with the timeout flag cleared for the new question `q` (an input, as above). */
  function StartLevel(g: Game, q: Question): (r: Game)
    requires g.screen == LevelStart
    ensures r.screen == PlayingLevel && r.question == q && !r.timeUp
    ensures r.(screen := g.screen, question := g.question, timeUp := g.timeUp) == g
    ensures Valid(g) ==> Valid(r)
  {
    g.(screen := PlayingLevel, question := q, timeUp := false)
  }

  /** The click on the level-end screen: the finished game is saved and the menu returns. */
  function EndLevel(g: Game): (r: Game)
    requires g.screen == LevelEnd
    ensures r.screen == MainMenu
    ensures var k := FirstNamed(r.users, g.current.username); k >= 0 && r.users[k] == g.current
    ensures r.(screen := g.screen, users := g.users) == g
    ensures Valid(g) ==> Valid(r)
  {
    UpdateFinds(g.users, g.current);
    UpdateTallied(g.users, g.current);
    g.(users := UpdateUserRecord(g.users, g.current), screen := MainMenu)
  }

  // ---------------------------------------------------------------------------
  // The retry-failed screen

  /**
   * The answer button: a correct answer to the oldest failed question earns
   * 10, removes it and saves the user; the input is cleared either way.
   * With no failed questions the button is not there.
   */
  function RetryAnswer(g: Game, verdict: bool): (r: Game)
    requires g.screen == RetryFailed
    ensures |g.current.failed| == 0 ==> r == g
    ensures |g.current.failed| > 0 && verdict ==>
      && r.current.totalScore == g.current.totalScore + Credit
      && r.current.failed == g.current.failed[1..]
      && r.users == UpdateUserRecord(g.users, r.current)
    ensures |g.current.failed| > 0 && !verdict ==> r == g.(input := "")
    ensures |g.current.failed| > 0 ==> r.input == "" && r.screen == RetryFailed
    ensures r.current.(totalScore := g.current.totalScore, failed := g.current.failed) == g.current
    ensures Valid(g) ==> Valid(r)
  {
    if |g.current.failed| == 0 then g
    else if verdict then
      var u := g.current.(totalScore := g.current.totalScore + Credit, failed := g.current.failed[1..]);
      UpdateTallied(g.users, u);
      g.(current := u, users := UpdateUserRecord(g.users, u), input := "")
    else g.(input := "")
  }

  /** The skip button: drops the oldest failed question without saving. */
  function RetrySkip(g: Game): (r: Game)
    requires g.screen == RetryFailed
    ensures |g.current.failed| == 0 ==> r == g
    ensures |g.current.failed| > 0 ==> r.current.failed == g.current.failed[1..] && r.input == ""
    ensures r.current.totalScore == g.current.totalScore && r.users == g.users
    ensures Valid(g) ==> Valid(r)
  {
    if |g.current.failed| == 0 then g
    else g.(current := g.current.(failed := g.current.failed[1..]), input := "")
  }

  /** Retrying a question it already holds, the answer checker decides with the question's own value. */
  lemma RetryWithOwnValue(g: Game, stod: string -> Option<real>)
    requires g.screen == RetryFailed && |g.current.failed| > 0
    requires EvaluateFractionalInput(g.input, stod) == Some(Finite(g.current.failed[0].answer))
    ensures RetryAnswer(g, IsAnswerCorrect(g.input, Finite(g.current.failed[0].answer), stod)).current.totalScore ==
            g.current.totalScore + Credit
  {
  }

  // ---------------------------------------------------------------------------
  // A whole game

  /** The typed input and the checker's verdict for one level's question. */
  datatype Round = Round(question: Question, input: string, verdict: bool)

  predicate Credited(r: Round)
  {
    !Skipped(r.input) && r.verdict
  }

  function Points(rounds: seq<Round>): int
  {
    if |rounds| == 0 then 0 else Delta(Credited(rounds[0])) + Points(rounds[1..])
  }

  function Credits(rounds: seq<Round>): (n: nat)
    ensures n <= |rounds|
  {
    if |rounds| == 0 then 0 else (if Credited(rounds[0]) then 1 else 0) + Credits(rounds[1..])
  }

  function Missed(rounds: seq<Round>): seq<Question>
  {
    if |rounds| == 0 then [] else (if Credited(rounds[0]) then [] else [rounds[0].question]) + Missed(rounds[1..])
  }

  /** Levels started and answered in turn, until the game ends or the rounds run out. */
  function Play(g: Game, rounds: seq<Round>): Game
    requires g.screen == LevelStart
    decreases |rounds|
  {
    if |rounds| == 0 then g
    else
      var g' := AfterRound(g, rounds[0]);
      if g'.screen == LevelStart then Play(g', rounds[1..]) else g'
  }

  lemma {:induction false} PointsOfCredits(rounds: seq<Round>)
    ensures Points(rounds) == 15 * Credits(rounds) - 5 * |rounds|
    decreases |rounds|
  {
    if |rounds| > 0 {
      PointsOfCredits(rounds[1..]);
    }
  }

  /** The game after one round started from a level start. */
  function AfterRound(g: Game, first: Round): Game
    requires g.screen == LevelStart
  {
    Submit(StartLevel(g, first.question).(input := first.input), first.verdict)
  }

  /** Submitting never reads the timeout flag: a round started as written differs from AfterRound only in the flag. */
  lemma RoundIgnoresFlag(g: Game, first: Round)
    requires g.screen == LevelStart
    ensures Submit(StartLevelAsWritten(g, first.question).(input := first.input), first.verdict) ==
            AfterRound(g, first).(timeUp := g.timeUp)
  {
  }

  lemma OneRound(g: Game, first: Round)
    requires g.screen == LevelStart && 0 <= g.level < Levels
    ensures var r := AfterRound(g, first);
      && r.level == g.level + 1
      && r.levelScore == g.levelScore + Delta(Credited(first))
      && r.current.totalScore == g.current.totalScore + Delta(Credited(first))
      && r.current.failed == g.current.failed + (if Credited(first) then [] else [first.question])
      && (r.level < Levels ==> r.screen == LevelStart && r.current.gamesPlayed == g.current.gamesPlayed)
      && (r.level < Levels ==> r.current.gamesWon == g.current.gamesWon && r.current.gamesLost == g.current.gamesLost)
      && (r.level == Levels ==> r.screen == LevelEnd && r.current.gamesPlayed == g.current.gamesPlayed + 1)
      && (r.level == Levels ==> r.current.gamesWon == g.current.gamesWon + (if r.levelScore > 0 then 1 else 0))
      && (r.level == Levels ==> r.current.gamesLost == g.current.gamesLost + (if r.levelScore > 0 then 0 else 1))
  {
    var s := StartLevel(g, first.question).(input := first.input);
    assert s.current == g.current && s.levelScore == g.levelScore && s.level == g.level;
    assert s.question == first.question && s.input == first.input;
  }

  lemma OneRoundFailed(g: Game, first: Round)
    requires g.screen == LevelStart && 0 <= g.level < Levels
    ensures var r := AfterRound(g, first);
      && r.level == g.level + 1
      && (r.level < Levels ==> r.screen == LevelStart)
      && r.current.failed == g.current.failed + (if Credited(first) then [] else [first.question])
  {
    OneRound(g, first);
  }

  lemma ConcatAssoc(a: seq<Question>, b: seq<Question>, c: seq<Question>)
    ensures a + b + c == a + (b + c)
  {
  }

  /** Playing out the remaining levels from a level start: where it ends, and the points it adds. */
  lemma {:induction false} PlayOutScore(g: Game, rounds: seq<Round>)
    requires g.screen == LevelStart && 0 <= g.level && g.level + |rounds| == Levels && |rounds| > 0
    ensures var r := Play(g, rounds);
      && r.screen == LevelEnd
      && r.levelScore == g.levelScore + Points(rounds)
      && r.current.totalScore == g.current.totalScore + Points(rounds)
    decreases |rounds|
  {
    var first := rounds[0];
    var g' := AfterRound(g, first);
    OneRound(g, first);
    assert Points(rounds) == Delta(Credited(first)) + Points(rounds[1..]);
    if |rounds| > 1 {
      assert Play(g, rounds) == Play(g', rounds[1..]);
      PlayOutScore(g', rounds[1..]);
    } else {
      assert Play(g, rounds) == g';
    }
  }

  /** The questions filed while playing out the remaining levels. */
  lemma {:induction false} PlayOutFailed(g: Game, rounds: seq<Round>)
    requires g.screen == LevelStart && 0 <= g.level && g.level + |rounds| == Levels && |rounds| > 0
    ensures Play(g, rounds).current.failed == g.current.failed + Missed(rounds)
    decreases |rounds|
  {
    var first := rounds[0];
    var g' := AfterRound(g, first);
    OneRoundFailed(g, first);
    var missed := if Credited(first) then [] else [first.question];
    assert Missed(rounds) == missed + Missed(rounds[1..]);
    if |rounds| > 1 {
      assert Play(g, rounds) == Play(g', rounds[1..]);
      var rest := rounds[1..];
      PlayOutFailed(g', rest);
      ConcatAssoc(g.current.failed, missed, Missed(rest));
    } else {
      assert Play(g, rounds) == g';
      assert Missed(rounds) == missed;
    }
  }

  /** Playing out the remaining levels ends one game, won exactly when the final level score is positive. */
  lemma {:induction false} PlayOutTally(g: Game, rounds: seq<Round>)
    requires g.screen == LevelStart && 0 <= g.level && g.level + |rounds| == Levels && |rounds| > 0
    ensures var r := Play(g, rounds);
      && r.current.gamesPlayed == g.current.gamesPlayed + 1
      && r.current.gamesWon == g.current.gamesWon + (if r.levelScore > 0 then 1 else 0)
      && r.current.gamesLost == g.current.gamesLost + (if r.levelScore > 0 then 0 else 1)
    decreases |rounds|
  {
    var first := rounds[0];
    var g' := AfterRound(g, first);
    OneRound(g, first);
    if |rounds| > 1 {
      assert Play(g, rounds) == Play(g', rounds[1..]);
      PlayOutTally(g', rounds[1..]);
    } else {
      assert Play(g, rounds) == g';
    }
  }

  /** A game of three levels is won exactly when at least two answers were credited. */
  lemma WholeGame(g: Game, rounds: seq<Round>)
    requires g.screen == MainMenu && |rounds| == Levels
    ensures var r := Play(StartGame(g), rounds);
      && r.screen == LevelEnd
      && r.current.totalScore == g.current.totalScore + 15 * Credits(rounds) - 15
      && r.current.failed == g.current.failed + Missed(rounds)
      && r.current.gamesPlayed == g.current.gamesPlayed + 1
      && (r.current.gamesWon == g.current.gamesWon + 1 <==> Credits(rounds) >= 2)
      && (r.current.gamesLost == g.current.gamesLost + 1 <==> Credits(rounds) < 2)
  {
    PlayOutScore(StartGame(g), rounds);
    PlayOutFailed(StartGame(g), rounds);
    PlayOutTally(StartGame(g), rounds);
    PointsOfCredits(rounds);
  }

  // ---------------------------------------------------------------------------
  // The timeout as written

  /**
   * The draw pass of the playing screen, which runs each frame before the
   * timeout test: with no time remaining it sets the timeout flag itself.
   */
  function DrawLatch(g: Game, elapsed: real): (r: Game)
    requires g.screen == PlayingLevel && 0 <= g.level < Levels
    ensures r.timeUp <==> g.timeUp || TimeLimits[g.level] as real - elapsed <= 0.0
    ensures r.(timeUp := g.timeUp) == g
  {
    if TimeLimits[g.level] as real - elapsed <= 0.0 && !g.timeUp then g.(timeUp := true) else g
  }

  /** One frame as written: the clock read by the draw pass, then read again by the timeout test. */
  function FrameAsWritten(g: Game, drawn: real, checked: real): Game
    requires g.screen == PlayingLevel && 0 <= g.level < Levels
  {
    Tick(DrawLatch(g, drawn), checked)
  }

  /**
   * The penalty is applied only when the limit passes between the two clock
   * readings of one frame; once the draw pass has seen it, it never is.
   */
  lemma FramePenaltyWindow(g: Game, drawn: real, checked: real)
    requires g.screen == PlayingLevel && 0 <= g.level < Levels && drawn <= checked
    ensures FrameAsWritten(g, drawn, checked).level == g.level + 1 <==>
      !g.timeUp && drawn < TimeLimits[g.level] as real <= checked
    ensures drawn >= TimeLimits[g.level] as real ==> FrameAsWritten(g, drawn, checked) == g.(timeUp := true)
  {
  }

  /** Level 1, both clock readings at 20 s: the time is up, and nothing is charged. */
  lemma LatchSwallowsTimeout(g: Game)
    requires g.screen == PlayingLevel && g.level == 0 && !g.timeUp
    ensures Tick(g, 20.0).current.totalScore == g.current.totalScore - Penalty
    ensures FrameAsWritten(g, 20.0, 20.0).current.totalScore == g.current.totalScore
    ensures FrameAsWritten(g, 20.0, 20.0).screen == PlayingLevel
  {
  }

  /** As written, after a timeout the flag stays set, so a later level of the same game never times out. */
  lemma LaterTimeoutIgnored(g: Game, first: real, q: Question, later: real)
    requires g.screen == PlayingLevel && 0 <= g.level < Levels - 1
    requires first >= TimeLimits[g.level] as real && !g.timeUp
    ensures Tick(g, first).screen == LevelStart
    ensures var s := StartLevelAsWritten(Tick(g, first), q); Tick(s, later) == s
  {
  }

  /** With the flag cleared at each level start, every level's time limit charges the penalty. */
  lemma EveryLevelTimesOut(g: Game, q: Question, elapsed: real)
    requires g.screen == LevelStart && 0 <= g.level < Levels
    requires elapsed >= TimeLimits[g.level] as real
    ensures var s := StartLevel(g, q);
      && Tick(s, elapsed).level == g.level + 1
      && Tick(s, elapsed).current.totalScore == g.current.totalScore - Penalty
      && Tick(s, elapsed).current.failed == g.current.failed + [q]
  {
  }
}

=== FILE: generator.dfy ===
/**
 * generate_random_question and its helpers random_num and random_operator.
 * Every call of rand() reads the next value of an explicit stream of
 * non-negative draws; a computation that needs a draw when the stream is
 * empty is Exhausted. Where the program's behaviour is undefined (the
 * evaluator reading an empty stack, a double-to-int conversion or an int
 * product out of 32-bit range) the outcome is Undefined. Reading the
 * uninitialised `next` on the skip-after-`*`/`/` path is undefined behaviour
 * too; the model replaces that read by the arbitrary value `stale(i)` and does
 * not flag it, so "defined" below means free of the three kinds above.
 */
module Generator {
  import opened Options
  import opened Arith
  import opened Lexer
  import opened Evaluator

  datatype Question = Question(expression: string, answer: real)

  /** A result together with the draws not yet consumed. */
  datatype Outcome<T> = Done(value: T, rest: seq<nat>) | Exhausted | Undefined

  const IntMin: int := -0x8000_0000
  const IntMax: int := 0x7fff_ffff

  predicate IsInt32(x: int)
  {
    IntMin <= x <= IntMax
  }

  function Min(a: int, b: int): int
  {
    if a <= b then a else b
  }

  function Max(a: int, b: int): int
  {
    if a <= b then b else a
  }

  /** random_num: the bounds are swapped when given in the wrong order. */
  function RandomNum(lo: int, hi: int, draw: nat): (r: int)
    ensures Min(lo, hi) <= r <= Max(lo, hi)
  {
    if lo > hi then hi + draw % (lo - hi + 1) else lo + draw % (hi - lo + 1)
  }

  const Operators: string := "+-*/"

  function RandomOperator(draw: nat): (c: char)
    ensures IsArith(c)
    ensures c in Operators
  {
    Operators[draw % 4]
  }

  /** The divisors tried when the running value is a multiple of ten and more operators follow. */
  const CleanDivisors: seq<int> := [2, 4, 5, 8, 10]

  /** The parameters of one difficulty level. */
  datatype Tier = Tier(level: int, numOps: int, minVal: int, maxVal: int)

  /** Between the tier's bounds, whichever order they come in (random_num swaps them). */
  predicate InRange(t: Tier, x: int)
  {
    Min(t.minVal, t.maxVal) <= x <= Max(t.minVal, t.maxVal)
  }

  /** C++ truncation of a double to an int: toward zero. */
  function Truncate(v: real): (n: int)
    ensures v >= 0.0 ==> n as real <= v < n as real + 1.0
    ensures v < 0.0 ==> n as real - 1.0 < v <= n as real
  {
    if v >= 0.0 then v.Floor else -((-v).Floor)
  }

  /** The expression so far evaluated and truncated to an int; None where the program's behaviour is undefined. */
  function RunningValue(e: Expr): (r: Option<int>)
    ensures r.Some? ==> IsInt32(r.value) && EvaluateExpression(Show(e)).Some?
  {
    match EvaluateExpression(Show(e))
    case None => None
    case Some(v) => if IsInt32(Truncate(v)) then Some(Truncate(v)) else None
  }

  /**
   * The divisor search reads the value of the whole expression printed so far,
   * truncated toward zero, not the left operand of the `/` being drawn.
   */
  lemma RunningValueTruncates(e: Expr)
    requires Literals(e) && ArithOps(e.links)
    ensures RunningValue(e).Some? <==> IsInt32(Truncate(ExprValue(Guarded, e)))
    ensures RunningValue(e).Some? ==> RunningValue(e).value == Truncate(ExprValue(Guarded, e))
  {
    EvaluateShown(e);
  }

  /** The exit test of the divisor search: `d` divides the running value, or twice or four times it. */
  predicate DivisorFits(cv: int, d: int)
    requires d != 0
  {
    cv % d == 0 || (cv * 2) % d == 0 || (cv * 4) % d == 0
  }

  /** Redraws an operand while it is zero. */
  function RedrawZero(t: Tier, next: int, draws: seq<nat>): (r: Outcome<int>)
    ensures !r.Undefined?
    ensures r.Done? ==> r.value != 0 && (r.value == next || InRange(t, r.value))
    ensures r.Done? ==> |r.rest| <= |draws|
    decreases |draws|
  {
    if next != 0 then Done(next, draws)
    else if |draws| == 0 then Exhausted
    else RedrawZero(t, RandomNum(t.minVal, t.maxVal, draws[0]), draws[1..])
  }

  /**
   * The divisor search: draws a divisor, from CleanDivisors when `clean`
   * and from [1, 10] otherwise, until it differs from the running value
   * `cv` and passes DivisorFits.
   */
  function SearchDivisor(cv: int, clean: bool, draws: seq<nat>): (r: Outcome<int>)
    ensures !r.Undefined?
    ensures r.Done? ==> 1 <= r.value <= 10 && r.value != cv && DivisorFits(cv, r.value)
    ensures r.Done? && clean ==> r.value in CleanDivisors
    ensures r.Done? ==> |r.rest| < |draws|
    decreases |draws|
  {
    if |draws| == 0 then Exhausted
    else
      var next := if clean then CleanDivisors[draws[0] % |CleanDivisors|] else RandomNum(1, 10, draws[0]);
      if next == cv || !DivisorFits(cv, next) then SearchDivisor(cv, clean, draws[1..])
      else Done(next, draws[1..])
  }

  /** What the program guarantees of an operand drawn for `op` after the expression `e`. */
  predicate OperandFits(t: Tier, e: Expr, l: Link)
  {
    && (l.op != '/' ==> InRange(t, l.operand))
    && (l.op == '/' ==>
          && l.operand != 0
          && (InRange(t, l.operand) || 1 <= l.operand <= 10)
          && RunningValue(e).Some?
          && DivisorFits(RunningValue(e).value, l.operand))
  }

  /**
   * Draws the operand for `op`; for a division, redraws zero and, unless the
   * running value already divides (four times) evenly, searches a divisor.
   * Only `i` operators are already in `e`.
   */
  function DrawOperand(t: Tier, e: Expr, op: char, draws: seq<nat>): (r: Outcome<int>)
    ensures r.Done? ==> OperandFits(t, e, Link(op, r.value))
    ensures r.Done? ==> |r.rest| < |draws|
  {
    if |draws| == 0 then Exhausted
    else
      var next := RandomNum(t.minVal, t.maxVal, draws[0]);
      if op != '/' then Done(next, draws[1..])
      else
        match RedrawZero(t, next, draws[1..])
        case Exhausted => Exhausted
        case Undefined => Undefined
        case Done(d, rest) =>
          match RunningValue(e)
          case None => Undefined
          case Some(cv) =>
            if cv % d == 0 then Done(d, rest)
            else if !IsInt32(cv * 4) then Undefined
            else if (cv * 4) % d == 0 then Done(d, rest)
            else SearchDivisor(cv, cv % 10 == 0 && |e.links| < t.numOps - 1, rest)
  }

  /** Draws an operator; at level 3, a division after an earlier one is redrawn once. */
  function DrawOperator(level: int, divisionUsed: bool, draws: seq<nat>): (r: Outcome<char>)
    ensures !r.Undefined?
    ensures r.Done? ==> IsArith(r.value) && |r.rest| < |draws|
  {
    if |draws| == 0 then Exhausted
    else
      var op := RandomOperator(draws[0]);
      if level == 3 && op == '/' && divisionUsed then
        if |draws| < 2 then Exhausted else Done(RandomOperator(draws[1]), draws[2..])
      else Done(op, draws[1..])
  }

  /** A `*` straight after a `/`, or the other way round: the draw that skips the operand. */
  predicate Quirk(lastOp: char, op: char)
  {
    (lastOp == '/' && op == '*') || (lastOp == '*' && op == '/')
  }

  /**
   * One pass of the do-while loop choosing the next operator and operand.
   * On a Quirk pair the loop body is left before the operand is drawn and the
   * loop test is false, so the operand is whatever `next` held: the value of
   * an earlier pass (`held`) or, if there was none, the indeterminate `stale`.
   */
  function ChooseLink(t: Tier, e: Expr, lastOp: char, divisionUsed: bool, held: Option<int>, stale: int,
                      draws: seq<nat>): (r: Outcome<Link>)
    ensures r.Done? ==> IsArith(r.value.op) && r.value.op != lastOp && |r.rest| < |draws|
    ensures r.Done? && !Quirk(lastOp, r.value.op) ==> OperandFits(t, e, r.value)
    decreases |draws|
  {
    match DrawOperator(t.level, divisionUsed, draws)
    case Exhausted => Exhausted
    case Undefined => Undefined
    case Done(op, rest) =>
      if Quirk(lastOp, op) then Done(Link(op, held.GetOr(stale)), rest)
      else
        match DrawOperand(t, e, op, rest)
        case Exhausted => Exhausted
        case Undefined => Undefined
        case Done(next, rest') =>
          if lastOp == op then ChooseLink(t, e, lastOp, divisionUsed, Some(next), stale, rest')
          else Done(Link(op, next), rest')
  }

  /** The operator before link `j`; a blank before the first. */
  function PrevOp(e: Expr, j: int): char
    requires 0 <= j <= |e.links|
  {
    if j == 0 then ' ' else e.links[j - 1].op
  }

  /** The invariant of the generator's loop over operators. */
  predicate WellDrawn(t: Tier, e: Expr)
  {
    forall j :: 0 <= j < |e.links| ==>
      && IsArith(e.links[j].op)
      && e.links[j].op != PrevOp(e, j)
      && (!Quirk(PrevOp(e, j), e.links[j].op) ==> OperandFits(t, Expr(e.lead, e.links[..j]), e.links[j]))
  }

  lemma WellDrawnExtend(t: Tier, e: Expr, l: Link)
    requires WellDrawn(t, e)
    requires IsArith(l.op) && l.op != PrevOp(e, |e.links|)
    requires !Quirk(PrevOp(e, |e.links|), l.op) ==> OperandFits(t, e, l)
    ensures WellDrawn(t, Expr(e.lead, e.links + [l]))
  {
    var e' := Expr(e.lead, e.links + [l]);
    forall j | 0 <= j < |e'.links|
      ensures IsArith(e'.links[j].op) && e'.links[j].op != PrevOp(e', j)
      ensures !Quirk(PrevOp(e', j), e'.links[j].op) ==> OperandFits(t, Expr(e.lead, e'.links[..j]), e'.links[j])
    {
      if j < |e.links| {
        assert e'.links[j] == e.links[j];
        assert e'.links[..j] == e.links[..j];
        assert PrevOp(e', j) == PrevOp(e, j);
      } else {
        assert e'.links[..j] == e.links;
      }
    }
  }

  /** The for loop over the operators: `e` holds the operators chosen so far. */
  function Build(t: Tier, e: Expr, lastOp: char, divisionUsed: bool, stale: nat -> int,
                 draws: seq<nat>): (r: Outcome<Expr>)
    requires |e.links| <= t.numOps
    requires lastOp == PrevOp(e, |e.links|)
    requires WellDrawn(t, e)
    ensures r.Done? ==> r.value.lead == e.lead && |r.value.links| == t.numOps
    ensures r.Done? ==> r.value.links[..|e.links|] == e.links
    ensures r.Done? ==> WellDrawn(t, r.value)
    decreases t.numOps - |e.links|
  {
    if |e.links| == t.numOps then Done(e, draws)
    else
      match ChooseLink(t, e, lastOp, divisionUsed, None, stale(|e.links|), draws)
      case Exhausted => Exhausted
      case Undefined => Undefined
      case Done(l, rest) =>
        var e' := Expr(e.lead, e.links + [l]);
        WellDrawnExtend(t, e, l);
        assert e'.links[..|e.links|] == e.links;
        var r := Build(t, e', l.op, divisionUsed || (t.level == 3 && l.op == '/'), stale, rest);
        assert r.Done? ==> r.value.links[..|e.links|] == r.value.links[..|e'.links|][..|e.links|];
        r
  }

  /** The tier of a level with `numOps` operators. */
  function TierOf(level: int, numOps: int): Tier
  {
    if level == 1 then Tier(1, 1, 1, 10) else Tier(level, numOps, 5 * level, 15 * level)
  }

  /** The leading operand, then the operators. */
  function Lead(t: Tier, stale: nat -> int, draws: seq<nat>): (r: Outcome<Expr>)
    requires t.numOps >= 0
    ensures r.Done? ==> |r.value.links| == t.numOps && InRange(t, r.value.lead) && WellDrawn(t, r.value)
  {
    if |draws| == 0 then Exhausted
    else Build(t, Expr(RandomNum(t.minVal, t.maxVal, draws[0]), []), ' ', false, stale, draws[1..])
  }

  /** The expression generate_random_question builds, before its final evaluation. */
  function GenerateDraft(level: int, stale: nat -> int, draws: seq<nat>): (r: Outcome<Expr>)
    requires 1 <= level <= 3
    ensures r.Done? && level == 1 ==> |r.value.links| == 1 && 1 <= r.value.lead <= 10
    ensures r.Done? && level > 1 ==> 2 <= |r.value.links| <= 3 && 5 * level <= r.value.lead <= 15 * level
    ensures r.Done? ==> WellDrawn(TierOf(level, |r.value.links|), r.value)
    ensures r.Done? ==> forall j :: 0 < j < |r.value.links| ==> r.value.links[j].op != r.value.links[j - 1].op
    ensures r.Done? && level == 1 ==> 1 <= r.value.links[0].operand <= 10
  {
    if level == 1 then Lead(TierOf(1, 1), stale, draws)
    else if |draws| == 0 then Exhausted
    else Lead(TierOf(level, RandomNum(2, 3, draws[0])), stale, draws[1..])
  }

  /**
   * generate_random_question: the expression text and its evaluated answer.
   * Level 1 never takes the skip-after-`*`/`/` path and is always defined. At
   * levels 2 and 3 none of the three tracked kinds of undefined behaviour occurs
   * when the value standing in for the uninitialised `next` is one a draw could
   * have left there. On the normal path the answer is the exact value of the
   * expression.
   */
  function GenerateRandomQuestion(level: int, stale: nat -> int, draws: seq<nat>): (r: Outcome<Question>)
    requires 1 <= level <= 3
    ensures r.Done? ==> GenerateDraft(level, stale, draws).Done?
    ensures r.Done? ==> r.value.expression == Show(GenerateDraft(level, stale, draws).value)
    ensures r.Done? ==> EvaluateExpression(r.value.expression) == Some(r.value.answer)
    ensures level == 1 ==> !r.Undefined?
    ensures StaleInRange(stale) ==> !r.Undefined?
    ensures GenerateDraft(level, stale, draws).Done? && NormalPath(GenerateDraft(level, stale, draws).value) ==>
      r.Done? && r.value.answer == ExprValue(Exact, GenerateDraft(level, stale, draws).value)
  {
    DraftOutcome(level, stale, draws);
    match GenerateDraft(level, stale, draws)
    case Exhausted => Exhausted
    case Undefined => Undefined
    case Done(e, rest) =>
      match EvaluateExpression(Show(e))
      case None => Undefined
      case Some(v) => Done(Question(Show(e), v), rest)
  }

  // ---------------------------------------------------------------------------
  // Properties of generated questions

  /** No `*` directly after a `/` nor the other way round: every operand was drawn by the loop body. */
  predicate NormalPath(e: Expr)
  {
    forall j :: 0 <= j < |e.links| ==> !Quirk(PrevOp(e, j), e.links[j].op)
  }

  /** At level 1 the single operator follows the blank, so the normal path is the only one. */
  lemma LevelOneNormal(stale: nat -> int, draws: seq<nat>)
    requires GenerateDraft(1, stale, draws).Done?
    ensures NormalPath(GenerateDraft(1, stale, draws).value)
  {
    var e := GenerateDraft(1, stale, draws).value;
    assert PrevOp(e, 0) == ' ';
  }

  /** The running value of a lone literal is the literal. */
  lemma RunningValueOfLiteral(n: int)
    requires 0 <= n <= IntMax
    ensures RunningValue(Expr(n, [])) == Some(n)
  {
    var e := Expr(n, []);
    EvaluateShown(e);
    assert ExprValue(Guarded, e) == n as real;
  }

  /** At level 1 the running value is the lead itself, so drawing a divisor is always defined. */
  lemma LevelOneOperand(lead: int, op: char, draws: seq<nat>)
    requires 1 <= lead <= 10
    ensures !DrawOperand(TierOf(1, 1), Expr(lead, []), op, draws).Undefined?
  {
    RunningValueOfLiteral(lead);
    if |draws| > 0 && op == '/' {
      var next := RandomNum(1, 10, draws[0]);
      assert RedrawZero(TierOf(1, 1), next, draws[1..]) == Done(next, draws[1..]);
    }
  }

  /** After an operator other than `*` and `/` no skip is possible, so the value standing in for `next` is never read. */
  lemma {:induction false} ChooseLinkIgnoresStale(t: Tier, e: Expr, lastOp: char, divisionUsed: bool, held: Option<int>,
                                                  s1: int, s2: int, draws: seq<nat>)
    requires lastOp != '*' && lastOp != '/'
    ensures ChooseLink(t, e, lastOp, divisionUsed, held, s1, draws) == ChooseLink(t, e, lastOp, divisionUsed, held, s2, draws)
    decreases |draws|
  {
    match DrawOperator(t.level, divisionUsed, draws)
    case Exhausted =>
    case Undefined =>
    case Done(op, rest) =>
      match DrawOperand(t, e, op, rest)
      case Exhausted =>
      case Undefined =>
      case Done(next, rest') =>
        if lastOp == op {
          ChooseLinkIgnoresStale(t, e, lastOp, divisionUsed, Some(next), s1, s2, rest');
        }
  }

  /** Level 1 draws a single operator after a blank, so it never reads the uninitialised `next`. */
  lemma LevelOneIgnoresStale(s1: nat -> int, s2: nat -> int, draws: seq<nat>)
    ensures GenerateDraft(1, s1, draws) == GenerateDraft(1, s2, draws)
  {
    if |draws| > 0 {
      var t := TierOf(1, 1);
      var e0 := Expr(RandomNum(1, 10, draws[0]), []);
      var rest := draws[1..];
      ChooseLinkIgnoresStale(t, e0, ' ', false, None, s1(0), s2(0), rest);
      assert GenerateDraft(1, s1, draws) == Build(t, e0, ' ', false, s1, rest);
      assert GenerateDraft(1, s2, draws) == Build(t, e0, ' ', false, s2, rest);
      var c := ChooseLink(t, e0, ' ', false, None, s1(0), rest);
      if c.Done? {
        WellDrawnExtend(t, e0, c.value);
        var e1 := Expr(e0.lead, [c.value]);
        assert e0.links + [c.value] == e1.links;
        assert Build(t, e1, c.value.op, false, s1, c.rest) == Done(e1, c.rest);
        assert Build(t, e1, c.value.op, false, s2, c.rest) == Done(e1, c.rest);
      }
    }
  }

  lemma LevelOneDraftDefined(stale: nat -> int, draws: seq<nat>)
    ensures !GenerateDraft(1, stale, draws).Undefined?
  {
    if |draws| > 0 {
      var t := TierOf(1, 1);
      var lead := RandomNum(1, 10, draws[0]);
      var rest := draws[1..];
      var op := DrawOperator(1, false, rest);
      if op.Done? {
        LevelOneOperand(lead, op.value, op.rest);
      }
      var e0 := Expr(lead, []);
      var c := ChooseLink(t, e0, ' ', false, None, stale(0), rest);
      assert !c.Undefined?;
      assert GenerateDraft(1, stale, draws) == Build(t, e0, ' ', false, stale, rest);
      if c.Done? {
        WellDrawnExtend(t, e0, c.value);
        var e1 := Expr(lead, [c.value]);
        assert e0.links + [c.value] == e1.links;
        assert Build(t, e1, c.value.op, false, stale, c.rest).Done?;
      }
    }
  }

  /**
   * On the normal path every operand is at least 1, so the text reads back as
   * the expression, no division meets the 1e99 guard, and the text evaluates
   * to the exact value of the expression.
   */
  lemma NormalDraftExact(level: int, stale: nat -> int, draws: seq<nat>)
    requires 1 <= level <= 3
    requires GenerateDraft(level, stale, draws).Done?
    requires NormalPath(GenerateDraft(level, stale, draws).value)
    ensures Literals(GenerateDraft(level, stale, draws).value)
    ensures DivisionSafe(Exact, GenerateDraft(level, stale, draws).value.links)
    ensures EvaluateExpression(Show(GenerateDraft(level, stale, draws).value)) ==
            Some(ExprValue(Exact, GenerateDraft(level, stale, draws).value))
  {
    var e := GenerateDraft(level, stale, draws).value;
    var t := TierOf(level, |e.links|);
    forall j | 0 <= j < |e.links| ensures e.links[j].operand >= 1 && IsArith(e.links[j].op) {
      assert OperandFits(t, Expr(e.lead, e.links[..j]), e.links[j]);
    }
    assert Literals(e) && ArithOps(e.links);
    EvaluateShown(e);
    NoSentinel(e);
  }

  // ---------------------------------------------------------------------------
  // Definedness: every operand in [1, 45] keeps every value in int range

  /** The largest operand any tier draws: 15 times level 3. */
  const OperandCap: int := 45

  /** Every value the indeterminate operand can take is one a draw could have left in `next`. */
  ghost predicate StaleInRange(stale: nat -> int)
  {
    forall i: nat :: 1 <= stale(i) <= OperandCap
  }

  predicate SmallTier(t: Tier)
  {
    1 <= t.minVal <= t.maxVal <= OperandCap
  }

  /** Every operand of `e` lies in [1, 45]. */
  predicate Small(e: Expr)
  {
    && 1 <= e.lead <= OperandCap
    && forall i :: 0 <= i < |e.links| ==> 1 <= e.links[i].operand <= OperandCap
  }

  /** A bound on the magnitude of a term or an expression of `n` links whose operands lie in [1, 45]. */
  function Cap(n: nat): (c: real)
    ensures c >= OperandCap as real
  {
    if n == 0 then OperandCap as real else (Cap(n - 1) + 1.0) * OperandCap as real
  }

  lemma {:induction false} CapMono(a: nat, n: nat)
    requires a <= n
    ensures Cap(a) <= Cap(n)
    decreases n
  {
    if a < n {
      CapMono(a, n - 1);
    }
  }

  /** Two parts around one more operator stay within the bound of the whole. */
  lemma CapSplit(a: nat, b: nat, n: nat)
    requires a + b + 1 == n
    ensures Cap(a) + Cap(b) <= Cap(n)
  {
    CapMono(a, n - 1);
    CapMono(b, n - 1);
  }

  lemma NonNegProduct(p: real, q: real)
    requires p >= 0.0 && q >= 0.0
    ensures p * q >= 0.0
  {
  }

  lemma MulBound(v: real, x: real, c: real)
    requires Abs(v) <= c && 1.0 <= x <= OperandCap as real
    ensures Abs(v * x) <= c * OperandCap as real
  {
    var m := OperandCap as real;
    var a := Abs(v);
    NonNegProduct(a, x);
    if v >= 0.0 {
      assert v * x == a * x;
    } else {
      assert v * x == -(a * x);
    }
    NonNegProduct(c - a, x);
    assert (c - a) * x == c * x - a * x;
    NonNegProduct(c, m - x);
    assert c * (m - x) == c * m - c * x;
  }

  lemma DivBound(v: real, x: real)
    requires 1.0 <= x
    ensures Abs(v / x) <= Abs(v)
  {
    assert (v / x) * x == v;
    if v / x >= 0.0 {
      assert v / x <= (v / x) * x;
    } else {
      assert (v / x) * x <= v / x;
    }
  }

  /** One more operator and operand in [1, 45] multiplies the bound by at most 45 (after adding one). */
  lemma CombineBound(v: real, x: int, op: char, c: real)
    requires Abs(v) <= c && 1 <= x <= OperandCap
    ensures Abs(Combine(Guarded, v, x as real, op)) <= (c + 1.0) * OperandCap as real
  {
    if op == '*' {
      MulBound(v, x as real, c);
    } else if op == '/' {
      DivBound(v, x as real);
    }
  }

  lemma {:induction false} TermBound(start: real, links: seq<Link>)
    requires Abs(start) <= OperandCap as real
    requires forall i :: 0 <= i < |links| ==> 1 <= links[i].operand <= OperandCap
    ensures Abs(TermValue(Guarded, start, links)) <= Cap(|links|)
    decreases |links|
  {
    var n := |links|;
    if n > 0 {
      TermBound(start, links[..n - 1]);
      CombineBound(TermValue(Guarded, start, links[..n - 1]), links[n - 1].operand, links[n - 1].op, Cap(n - 1));
    }
  }

  lemma {:induction false} ExprBound(e: Expr)
    requires Small(e)
    ensures Abs(ExprValue(Guarded, e)) <= Cap(|e.links|)
    decreases |e.links|
  {
    var L := e.links;
    var k := LastLow(L);
    if k < 0 {
      TermBound(e.lead as real, L);
    } else {
      var pre := Expr(e.lead, L[..k]);
      var post := L[k + 1..];
      assert Small(pre) by {
        forall i | 0 <= i < |pre.links| ensures 1 <= pre.links[i].operand <= OperandCap {
          assert pre.links[i] == L[i];
        }
      }
      ExprBound(pre);
      assert forall i :: 0 <= i < |post| ==> post[i] == L[k + 1 + i];
      TermBound(L[k].operand as real, post);
      CapSplit(k, |post|, |L|);
    }
  }

  /** Truncation never moves a value away from zero. */
  lemma TruncateBound(v: real)
    ensures Abs(Truncate(v) as real) <= Abs(v)
  {
  }

  /** The running value of an expression of at most two operators with operands in [1, 45] is an int of magnitude at most 93195. */
  lemma RunningValueSmall(e: Expr)
    requires Small(e) && ArithOps(e.links) && |e.links| <= 2
    ensures RunningValue(e).Some?
    ensures -93195 <= RunningValue(e).value <= 93195
  {
    assert Literals(e);
    EvaluateShown(e);
    ExprBound(e);
    CapMono(|e.links|, 2);
    assert Cap(2) == 93195.0;
    TruncateBound(ExprValue(Guarded, e));
  }

  /** With a small expression so far, drawing an operand is defined (no overflow, no empty stack) and gives a value in [1, 45]. */
  lemma DrawOperandDefined(t: Tier, e: Expr, op: char, draws: seq<nat>)
    requires SmallTier(t) && Small(e) && ArithOps(e.links) && |e.links| <= 2
    ensures !DrawOperand(t, e, op, draws).Undefined?
    ensures DrawOperand(t, e, op, draws).Done? ==> 1 <= DrawOperand(t, e, op, draws).value <= OperandCap
  {
    if |draws| > 0 && op == '/' {
      var next := RandomNum(t.minVal, t.maxVal, draws[0]);
      assert RedrawZero(t, next, draws[1..]) == Done(next, draws[1..]);
      RunningValueSmall(e);
    }
  }

  lemma {:induction false} ChooseLinkDefined(t: Tier, e: Expr, lastOp: char, divisionUsed: bool, held: Option<int>,
                                             stale: int, draws: seq<nat>)
    requires SmallTier(t) && Small(e) && ArithOps(e.links) && |e.links| <= 2
    requires held.Some? ==> 1 <= held.value <= OperandCap
    requires 1 <= stale <= OperandCap
    ensures !ChooseLink(t, e, lastOp, divisionUsed, held, stale, draws).Undefined?
    ensures ChooseLink(t, e, lastOp, divisionUsed, held, stale, draws).Done? ==>
      1 <= ChooseLink(t, e, lastOp, divisionUsed, held, stale, draws).value.operand <= OperandCap
    decreases |draws|
  {
    var o := DrawOperator(t.level, divisionUsed, draws);
    if o.Done? && !Quirk(lastOp, o.value) {
      DrawOperandDefined(t, e, o.value, o.rest);
      var d := DrawOperand(t, e, o.value, o.rest);
      if d.Done? && lastOp == o.value {
        ChooseLinkDefined(t, e, lastOp, divisionUsed, Some(d.value), stale, d.rest);
      }
    }
  }

  lemma {:induction false} BuildDefined(t: Tier, e: Expr, lastOp: char, divisionUsed: bool, stale: nat -> int,
                                        draws: seq<nat>)
    requires |e.links| <= t.numOps <= 3
    requires lastOp == PrevOp(e, |e.links|)
    requires WellDrawn(t, e)
    requires SmallTier(t) && Small(e) && StaleInRange(stale)
    ensures !Build(t, e, lastOp, divisionUsed, stale, draws).Undefined?
    ensures Build(t, e, lastOp, divisionUsed, stale, draws).Done? ==> Small(Build(t, e, lastOp, divisionUsed, stale, draws).value)
    decreases t.numOps - |e.links|
  {
    if |e.links| < t.numOps {
      assert ArithOps(e.links);
      ChooseLinkDefined(t, e, lastOp, divisionUsed, None, stale(|e.links|), draws);
      var c := ChooseLink(t, e, lastOp, divisionUsed, None, stale(|e.links|), draws);
      if c.Done? {
        var l := c.value;
        var e' := Expr(e.lead, e.links + [l]);
        WellDrawnExtend(t, e, l);
        assert e'.links[..|e.links|] == e.links;
        assert Small(e') by {
          forall i | 0 <= i < |e'.links| ensures 1 <= e'.links[i].operand <= OperandCap {
            if i < |e.links| {
              assert e'.links[i] == e.links[i];
            }
          }
        }
        var used := divisionUsed || (t.level == 3 && l.op == '/');
        assert Build(t, e, lastOp, divisionUsed, stale, draws) == Build(t, e', l.op, used, stale, c.rest);
        BuildDefined(t, e', l.op, used, stale, c.rest);
      }
    }
  }

  /**
   * With the value standing in for the uninitialised `next` in [1, 45], no level reaches
   * an out-of-range conversion, an int overflow or an empty-stack read while drawing.
   */
  lemma DraftDefined(level: int, stale: nat -> int, draws: seq<nat>)
    requires 1 <= level <= 3 && StaleInRange(stale)
    ensures !GenerateDraft(level, stale, draws).Undefined?
    ensures GenerateDraft(level, stale, draws).Done? ==> Small(GenerateDraft(level, stale, draws).value)
  {
    if level == 1 {
      if |draws| > 0 {
        var t := TierOf(1, 1);
        BuildDefined(t, Expr(RandomNum(t.minVal, t.maxVal, draws[0]), []), ' ', false, stale, draws[1..]);
      }
    } else if |draws| > 1 {
      var t := TierOf(level, RandomNum(2, 3, draws[0]));
      var rest := draws[1..];
      BuildDefined(t, Expr(RandomNum(t.minVal, t.maxVal, rest[0]), []), ' ', false, stale, rest[1..]);
    }
  }

  /** A small expression always evaluates. */
  lemma SmallEvaluates(t: Tier, e: Expr)
    requires Small(e) && WellDrawn(t, e)
    ensures EvaluateExpression(Show(e)).Some?
  {
    assert Literals(e) && ArithOps(e.links);
    EvaluateShown(e);
  }

  /** What GenerateRandomQuestion needs of the draft. */
  lemma DraftOutcome(level: int, stale: nat -> int, draws: seq<nat>)
    requires 1 <= level <= 3
    ensures level == 1 || StaleInRange(stale) ==> !GenerateDraft(level, stale, draws).Undefined?
    ensures GenerateDraft(level, stale, draws).Done? && (level == 1 || StaleInRange(stale)) ==>
      EvaluateExpression(Show(GenerateDraft(level, stale, draws).value)).Some?
    ensures GenerateDraft(level, stale, draws).Done? && NormalPath(GenerateDraft(level, stale, draws).value) ==>
      EvaluateExpression(Show(GenerateDraft(level, stale, draws).value)) ==
      Some(ExprValue(Exact, GenerateDraft(level, stale, draws).value))
  {
    var d := GenerateDraft(level, stale, draws);
    if level == 1 {
      LevelOneDraftDefined(stale, draws);
      if d.Done? {
        LevelOneNormal(stale, draws);
        NormalDraftExact(level, stale, draws);
      }
    }
    if StaleInRange(stale) {
      DraftDefined(level, stale, draws);
      if d.Done? {
        SmallEvaluates(TierOf(level, |d.value.links|), d.value);
      }
    }
    if d.Done? && NormalPath(d.value) {
      NormalDraftExact(level, stale, draws);
    }
  }

  // ---------------------------------------------------------------------------
  // What the program does not guarantee

  /** At level 3 the redraw after a second `/` is a single draw, which can be `/` again. */
  lemma SecondDivisionAtLevelThree()
    ensures DrawOperator(3, true, [3, 3]) == Done('/', [])
  {
  }

  /** A `*` drawn straight after a `/` keeps whatever the operand variable held. */
  lemma QuirkKeepsOperand(t: Tier, e: Expr, divisionUsed: bool, stale: int)
    ensures ChooseLink(t, e, '/', divisionUsed, None, stale, [2]) == Done(Link('*', stale), [])
  {
    assert RandomOperator(2) == '*';
    assert DrawOperator(t.level, divisionUsed, [2]) == Done('*', []);
  }

  lemma HalfValue()
    ensures Show(Expr(1, [Link('/', 2)])) == "1 / 2"
    ensures EvaluateExpression(Show(Expr(1, [Link('/', 2)]))) == Some(0.5)
  {
    var e := Expr(1, [Link('/', 2)]);
    assert Show(Expr(1, [])) == "1";
    assert IntToString(2) == "2";
    EvaluateShown(e);
    assert LastLow(e.links) == -1;
    ApplyOpMeaning(1.0, 2.0, '/');
  }

  /** The draws 0, 3, 1 at level 1: lead 1, operator `/`, divisor 2, which divides four times 1. */
  lemma HalfDivisor()
    ensures DrawOperand(TierOf(1, 1), Expr(1, []), '/', [1]) == Done(2, [])
  {
    RunningValueOfLiteral(1);
    assert RedrawZero(TierOf(1, 1), 2, []) == Done(2, []);
  }

  lemma HalfLink(stale: int)
    ensures ChooseLink(TierOf(1, 1), Expr(1, []), ' ', false, None, stale, [3, 1]) == Done(Link('/', 2), [])
  {
    HalfDivisor();
    assert DrawOperator(1, false, [3, 1]) == Done('/', [1]);
  }

  lemma HalfDraft(stale: nat -> int)
    ensures GenerateDraft(1, stale, [0, 3, 1]) == Done(Expr(1, [Link('/', 2)]), [])
  {
    var t := TierOf(1, 1);
    var e0 := Expr(1, []);
    var e := Expr(1, [Link('/', 2)]);
    HalfLink(stale(0));
    assert e0.links + [Link('/', 2)] == e.links;
    assert Build(t, e, '/', false, stale, []) == Done(e, []);
    assert Build(t, e0, ' ', false, stale, [3, 1]) == Done(e, []);
    assert [0, 3, 1][1..] == [3, 1];
  }

  /**
   * The divisor need only divide four times the running value, so the answer
   * need not be whole: the draws 0, 3, 1 give "1 / 2".
   */
  lemma FractionalAnswer(stale: nat -> int)
    ensures GenerateRandomQuestion(1, stale, [0, 3, 1]) == Done(Question("1 / 2", 0.5), [])
  {
    HalfDraft(stale);
    HalfValue();
  }
}

=== FILE: lexer.dfy ===
/**
 * The textual side of expressions: the scanner inside evaluate_expression
 * (spaces skipped, runs of digits accumulated into one literal, every other
 * character one operator token), decimal printing of integers as a string
 * stream does it, and the rendering of a token list with single spaces.
 */
module Lexer {

  datatype Token = Num(value: nat) | Op(symbol: char)

  predicate IsDigit(c: char)
  {
    '0' <= c <= '9'
  }

  function DigitValue(c: char): (d: nat)
    requires IsDigit(c)
    ensures d <= 9
  {
    c as int - '0' as int
  }

  function DigitChar(d: nat): (c: char)
    requires d <= 9
    ensures IsDigit(c) && DigitValue(c) == d
  {
    ('0' as int + d) as char
  }

  predicate AllDigits(s: string)
  {
    forall i :: 0 <= i < |s| ==> IsDigit(s[i])
  }

  /** The value of a digit string, accumulated left to right as `val * 10 + digit`. */
  function DigitsValue(s: string): nat
    requires AllDigits(s)
  {
    if |s| == 0 then 0 else DigitsValue(s[..|s| - 1]) * 10 + DigitValue(s[|s| - 1])
  }

  /** Decimal digits of `n`, most significant first, with no leading zeros. */
  function NatToString(n: nat): (s: string)
    ensures |s| > 0 && AllDigits(s)
    ensures |s| > 1 ==> s[0] != '0'
  {
    if n < 10 then [DigitChar(n)] else NatToString(n / 10) + [DigitChar(n % 10)]
  }

  /** Decimal text of an integer; a negative one gets a leading minus sign. */
  function IntToString(n: int): (s: string)
    ensures n >= 0 ==> s == NatToString(n)
    ensures n < 0 ==> s == "-" + NatToString(-n)
    ensures n >= 0 ==> AllDigits(s) && DigitsValue(s) == n
    ensures n < 0 ==> s[0] == '-' && AllDigits(s[1..]) && DigitsValue(s[1..]) == -n
  {
    if n < 0 then
      DigitsOfNumeral(-n);
      var s := "-" + NatToString(-n);
      assert s[1..] == NatToString(-n);
      s
    else
      DigitsOfNumeral(n);
      NatToString(n)
  }

  /** Length of the run of digits that starts `s`. */
  function DigitRun(s: string): (k: nat)
    ensures k <= |s|
    ensures AllDigits(s[..k])
    ensures k < |s| ==> !IsDigit(s[k])
  {
    if |s| > 0 && IsDigit(s[0]) then
      var k := 1 + DigitRun(s[1..]);
      assert s[..k] == [s[0]] + s[1..][..k - 1];
      k
    else 0
  }

  /** The token stream evaluate_expression reads from a string. */
  function Scan(s: string): seq<Token>
    decreases |s|
  {
    if |s| == 0 then []
    else if s[0] == ' ' then Scan(s[1..])
    else if IsDigit(s[0]) then
      var k := DigitRun(s);
      [Num(DigitsValue(s[..k]))] + Scan(s[k..])
    else [Op(s[0])] + Scan(s[1..])
  }

  function TokenText(t: Token): string
  {
    match t
    case Num(n) => NatToString(n)
    case Op(c) => [c]
  }

  /** The tokens written out with one space between neighbours. */
  function Render(ts: seq<Token>): string
  {
    if |ts| == 0 then ""
    else if |ts| == 1 then TokenText(ts[0])
    else Render(ts[..|ts| - 1]) + " " + TokenText(ts[|ts| - 1])
  }

  /** Operator tokens the scanner would read back as operators. */
  predicate Renderable(ts: seq<Token>)
  {
    forall i :: 0 <= i < |ts| && ts[i].Op? ==> ts[i].symbol != ' ' && !IsDigit(ts[i].symbol)
  }

  lemma {:induction false} DigitsOfNumeral(n: nat)
    ensures DigitsValue(NatToString(n)) == n
    decreases n
  {
    if n >= 10 {
      var s := NatToString(n / 10);
      DigitsOfNumeral(n / 10);
      assert (s + [DigitChar(n % 10)])[..|s|] == s;
    }
  }

  /** A digit run stops at the first character that is not a digit. */
  lemma {:induction false} DigitRunStops(a: string, c: char, b: string)
    requires !IsDigit(c)
    ensures DigitRun(a + [c] + b) == DigitRun(a)
    decreases |a|
  {
    if |a| == 0 {
      assert (a + [c] + b)[0] == c;
    } else if IsDigit(a[0]) {
      assert (a + [c] + b)[1..] == a[1..] + [c] + b;
      DigitRunStops(a[1..], c, b);
    }
  }

  lemma DigitRunOfDigits(s: string)
    requires AllDigits(s)
    ensures DigitRun(s) == |s|
  {
  }

  /** The first token of `a + " " + b` when `a` starts with a digit: the digit run, which stops before the space. */
  lemma ScanJoinDigits(a: string, b: string)
    requires |a| > 0 && IsDigit(a[0])
    ensures DigitRun(a) > 0
    ensures Scan(a + " " + b) == [Num(DigitsValue(a[..DigitRun(a)]))] + Scan(a[DigitRun(a)..] + " " + b)
    ensures Scan(a) == [Num(DigitsValue(a[..DigitRun(a)]))] + Scan(a[DigitRun(a)..])
  {
    var s := a + " " + b;
    assert s[0] == a[0];
    assert s == a + [' '] + b;
    DigitRunStops(a, ' ', b);
    var k := DigitRun(a);
    assert s[..k] == a[..k];
    assert s[k..] == a[k..] + " " + b;
  }

  /** The first character of `a + " " + b` when `a` starts with a space or an operator. */
  lemma ScanJoinChar(a: string, b: string)
    requires |a| > 0 && !IsDigit(a[0])
    ensures Scan(a + " " + b) == (if a[0] == ' ' then [] else [Op(a[0])]) + Scan(a[1..] + " " + b)
    ensures Scan(a) == (if a[0] == ' ' then [] else [Op(a[0])]) + Scan(a[1..])
  {
    var s := a + " " + b;
    assert s[0] == a[0];
    assert s[1..] == a[1..] + " " + b;
  }

  /** Scanning two texts joined by a space gives the two token streams one after the other. */
  lemma JoinHead(head: seq<Token>, x: seq<Token>, y: seq<Token>, joined: seq<Token>, whole: seq<Token>)
    requires joined == head + (x + y) && whole == head + x
    ensures joined == whole + y
  {
  }

  lemma {:induction false} ScanJoin(a: string, b: string)
    ensures Scan(a + " " + b) == Scan(a) + Scan(b)
    decreases |a|
  {
    if |a| == 0 {
      var s := a + " " + b;
      assert s == " " + b;
      assert s[1..] == b;
    } else if !IsDigit(a[0]) {
      ScanJoinChar(a, b);
      ScanJoin(a[1..], b);
      JoinHead(if a[0] == ' ' then [] else [Op(a[0])], Scan(a[1..]), Scan(b), Scan(a + " " + b), Scan(a));
    } else {
      ScanJoinDigits(a, b);
      var k := DigitRun(a);
      ScanJoin(a[k..], b);
      JoinHead([Num(DigitsValue(a[..k]))], Scan(a[k..]), Scan(b), Scan(a + " " + b), Scan(a));
    }
  }

  lemma ScanNumeral(n: nat)
    ensures Scan(NatToString(n)) == [Num(n)]
  {
    var s := NatToString(n);
    DigitRunOfDigits(s);
    DigitsOfNumeral(n);
    assert s[..|s|] == s;
    assert s[|s|..] == [];
  }

  lemma ScanToken(t: Token)
    requires Renderable([t])
    ensures Scan(TokenText(t)) == [t]
  {
    match t
    case Num(n) => ScanNumeral(n);
    case Op(c) =>
      assert [t][0].Op?;
      assert [c][1..] == [];
  }

  /** The scanner never yields a space or a digit as an operator, so its output can always be rendered back. */
  lemma {:induction false} ScanRenderable(s: string)
    ensures Renderable(Scan(s))
    decreases |s|
  {
    if |s| > 0 {
      if s[0] == ' ' {
        ScanRenderable(s[1..]);
      } else if IsDigit(s[0]) {
        var k := DigitRun(s);
        ScanRenderable(s[k..]);
        assert forall i :: 0 < i < |Scan(s)| ==> Scan(s)[i] == Scan(s[k..])[i - 1];
      } else {
        ScanRenderable(s[1..]);
        assert forall i :: 0 < i < |Scan(s)| ==> Scan(s)[i] == Scan(s[1..])[i - 1];
      }
    }
  }

  /** Round trip: the scanner reads a rendered token list back exactly. */
  lemma {:induction false} ScanRender(ts: seq<Token>)
    requires Renderable(ts)
    ensures Scan(Render(ts)) == ts
    decreases |ts|
  {
    if |ts| == 1 {
      ScanToken(ts[0]);
      assert [ts[0]] == ts;
    } else if |ts| > 1 {
      var init, last := ts[..|ts| - 1], ts[|ts| - 1];
      assert Renderable(init) by {
        forall i | 0 <= i < |init| && init[i].Op?
          ensures init[i].symbol != ' ' && !IsDigit(init[i].symbol)
        {
          assert init[i] == ts[i];
        }
      }
      assert Renderable([last]) by {
        assert [last][0] == ts[|ts| - 1];
      }
      ScanJoin(Render(init), TokenText(last));
      ScanRender(init);
      ScanToken(last);
      assert init + [last] == ts;
    }
  }
}

=== FILE: options.dfy ===
/** Optional values, used wherever the modelled program can fail to produce a value. */
module Options {

  datatype Option<+T> = None | Some(value: T) {

    /** The wrapped value, or `default` when there is none. */
    function GetOr(default: T): T
    {
      match this
      case Some(v) => v
      case None => default
    }
  }
}
